=== FILE: README.md ===
# Pesapal checkout client, modelled in Dafny

This project models the logic of a small demonstration client for the
Pesapal hosted-checkout API. It covers three parts of that client.

- **The token-gated API client** (`lib/pesapal.ts`).
  - Configuration is read from the environment and checked.
  - A bearer token is requested before every privileged call.
  - Each operation (register an IPN URL, list IPN URLs, submit an order,
    query a transaction's status, cancel an order) is mapped to the request
    it sends.
  - Failed responses become one error message that carries the HTTP status
    and the best error text the client can extract.
- **The IPN callback log** (`lib/ipn-log.ts`). Callbacks go into an
  append-only JSON array kept in one file. Each entry holds the raw body,
  the time it arrived, and the parsed body when the raw text is JSON.
- **The order form's pure helpers** (`app/page.tsx`).
  - Subscription dates are rewritten from year-month-day to day-month-year.
  - The subscription part of the form is validated.
  - The payload sent to the server is built.
  - Some guards run before an order is submitted.
  - The callback log is displayed newest first.

## How the model is built

- **Modules.** Each source file has its own module: `Pesapal`, `IpnLog` and
  `OrderForm`. They share three smaller modules:
  - `Wrappers`: `Option` and `Result`.
  - `Json`: a JSON value, and JavaScript truthiness, `typeof … === "object"`
    and `String(…)` on such values.
  - `JsText`: `trim`, ASCII `toLowerCase`, `split` and `join`, and decimal
    printing.
- **JSON text.** `JSON.parse` and `JSON.stringify` are not modelled
  character by character.
  - A `Codec` stands for them: a pair of total functions.
  - `parse` returns `None` where `JSON.parse` would throw.
  - The lemmas that need parse to undo stringify take `Lawful(c)` as a
    precondition. `Lawful` says three things:
    - `parse("[]")` is the empty array;
    - every value `parse` yields holds only numbers that `parse` yields for
      some text (`Json.ParsedNumbers`);
    - for a value that holds only such numbers, parsing its stringified
      text gives back the value's serialized form (`Json.Serialized`).
  - The round trip is asked only of values built from parsed numbers,
    which are the only values the client ever writes. A number text that
    no JavaScript number prints as, such as `1.0` or `01`, is never yielded
    by `JSON.parse`, so it is exempt (`Json.UnparsedNumberIsExempt`).
  - The serialized form is what `JSON.stringify` can write down. `JSON.parse`
    can yield `Infinity` (for `1e400`, say), and `JSON.stringify` writes
    `Infinity`, `-Infinity` and `NaN` as `null`. So among values built
    from parsed numbers, a number that is not finite comes back as `null`,
    and everything else comes back as it was.
- **Numbers.** A JavaScript number is kept as its printed text. The text is
  all the client ever does anything with, and `0` and `NaN` are its only
  falsy values.
- **The network.** `fetch` becomes a `Network` oracle, a function from the
  requests sent so far and the new request to a response.
  - Every client operation returns `Run(result, trace)`.
  - `trace` is the request history extended by the requests the operation
    sent. This lets contracts say how many requests were sent, in what
    order, and with which headers and bodies.
  - `Pesapal.AnswersLast` says that a run's result is what the response to
    its last request was interpreted as. `Pesapal.BearsToken` says that a
    request carries `Authorization: Bearer <token>`.
- **Token callbacks.** `withToken` takes a callback in the source. Each
  callback the client passes sends exactly one request, so here the callback
  is a `Call` value that says which request to send.
- **Errors.** A thrown `Error` becomes a `Failure` holding the error's
  message.
- **Dates.** `new Date(text)` is engine-defined, so validation takes it as a
  parameter (`DateParser`). The parser returns a time value, or `None` for
  an invalid date.
- **Same-day subscriptions.** The source rejects only a start date strictly
  after the end date, even though its message reads "End date must be after
  the start date". The model follows the code: a subscription may start and
  end on the same day (`OrderForm.SameDayIsAccepted`).
- **Blank settings.** `ensureEnv` checks for an empty value before trimming.
  A value made only of whitespace is therefore accepted and becomes `""`,
  and the model does the same.

## Model

| member | source | states |
|---|---|---|
| Json.Truthy | lib/pesapal.ts:141 | JavaScript truthiness: arrays and objects are truthy, `null` is not, and a string is truthy exactly when it is non-empty |
| Json.JsString | lib/pesapal.ts:134 | what `${v}` prints: a string prints as itself, an object as `[object Object]`, `null` as `null`, an empty array as nothing, a one-string array as that string, a number as its text and a boolean as `true` or `false` |
| Json.TryParseJson | lib/pesapal.ts:83-89 | the parsed value when the text parses, and `null` when `JSON.parse` would throw |
| Json.Serialized | lib/ipn-log.ts:36 | writing a value and reading it back keeps strings, booleans, `null` and finite numbers, keeps an object's keys, and turns a non-finite number into `null` |
| Json.SerializedItems | lib/ipn-log.ts:36 | an array is written and read back element by element, keeping its length and order |
| Json.SerializedIdempotent | lib/ipn-log.ts:34-36 | writing and reading back a value a second time changes nothing more |
| Json.SerializedExtend | lib/ipn-log.ts:34-36 | extending a list that was already written and read, then writing it, gives what writing the whole list once would |
| Json.UnparsedNumberIsExempt | lib/ipn-log.ts:25 | a number text that parsing never yields, such as `1.0`, is outside the round trip the codec is assumed to keep, alone or inside an array |
| JsText.Trim | lib/pesapal.ts:53 | `trim()`: the result is a contiguous piece of the input, no longer than it, with no whitespace at either end |
| JsText.TrimEmptyIffBlank | app/page.tsx:631 | a string trims to `""` exactly when it is made only of whitespace |
| JsText.TrimIdempotent | lib/pesapal.ts:53 | trimming twice is the same as trimming once |
| JsText.AsciiLower | lib/pesapal.ts:57 | `toLowerCase()` keeps the length of the text |
| JsText.AsciiLowerIdempotent | lib/pesapal.ts:57-58 | lower-casing an already lower-cased setting changes nothing |
| JsText.Split | app/page.tsx:669 | `split("-")`: at least one part, no part contains the separator, and joining the parts with it gives back the input |
| JsText.SplitJoin | app/page.tsx:669 | splitting a join of separator-free parts gives back the parts |
| JsText.SplitCons | app/page.tsx:669 | splitting `p + sep + t` yields `p` followed by the split of `t` |
| JsText.NatToDecimal | lib/pesapal.ts:78 | the printed status code is a non-empty run of decimal digits |
| JsText.DecimalRoundTrip | lib/pesapal.ts:78 | reading the printed status code back gives the status code |
| Pesapal.EnsureEnv | lib/pesapal.ts:49-54 | fails exactly when the value is unset or empty, with the message naming the variable and `.env.local`; otherwise returns the value trimmed at both ends |
| Pesapal.GetEnvironment | lib/pesapal.ts:56-62 | an unset setting means sandbox; succeeds exactly when the lower-cased setting is `sandbox` or `live`, and the environment's name is that lower-cased text; otherwise the error names the lower-cased value |
| Pesapal.GetEnvironmentIgnoresCase | lib/pesapal.ts:57 | a setting and its lower-cased form select the same environment |
| Pesapal.GetEnvironmentOfName | lib/pesapal.ts:56-62 | each environment's own name selects it |
| Pesapal.BaseUrl | lib/pesapal.ts:64-66 | an unset setting gives the sandbox URL; succeeds exactly when the environment does; the result is exactly one of the two base URLs, and it is the live one exactly when the setting lower-cases to `live`; a failure carries the environment check's `Unsupported PESAPAL_ENVIRONMENT: …` message |
| Pesapal.ExtractError | lib/pesapal.ts:91-112 | only objects carry errors; a string `error` wins over everything; a truthy object `error` decides alone (its truthy `message`, else its truthy `code`, else nothing); the top-level string `message` is used exactly when `error` is neither; the result is a string or truthy |
| Pesapal.ExtractErrorProvenance | lib/pesapal.ts:91-112 | whatever is extracted is the `error` field, the nested `message` or `code`, or the top-level `message` |
| Pesapal.FailureMessageRoundTrip | lib/pesapal.ts:78 | the status code and the detail can both be read back from a failure message |
| Pesapal.InterpretResponse | lib/pesapal.ts:68-89 | succeeds exactly when the response is ok, yielding the parsed body or `null` for a body that is not JSON; a failure's message is exactly the one built from the status and the error detail of the parsed body, which reads back as that status and detail |
| Pesapal.ErrorDetail | lib/pesapal.ts:76-77 | the extracted error, printed, when there is one; otherwise the body text when it is non-empty, else the status text; a body that is not an object always falls back to the text |
| Pesapal.NestedErrorMessageSurfaces | lib/pesapal.ts:77-103 | a nested `{message: "Invalid token", code: "E01"}` error surfaces as "Invalid token" |
| Pesapal.DefaultHeaders | lib/pesapal.ts:128-137 | JSON `Accept` and `Content-Type` are always present; `Authorization` is present exactly when the token is truthy, and is then `Bearer` followed by the token; no other header is set |
| Pesapal.Send | lib/pesapal.ts:68-72 | a fetch appends exactly its request to the history |
| Pesapal.TokenRequest | lib/pesapal.ts:117-125 | the token request carries no `Authorization` header |
| Pesapal.RequestAccessToken | lib/pesapal.ts:114-126 | sends at most one request; it sends none exactly when the key, the secret or the environment is rejected, and then it fails; a missing key is reported first, then a missing secret, then a rejected environment, each with its own message; the one request it sends is unauthenticated and keeps the history, and the result is what its response is interpreted as |
| Pesapal.TokenRequestShape | lib/pesapal.ts:115-125 | the token request is a POST to `/Auth/RequestToken` whose body holds the trimmed key and secret |
| Pesapal.CallRequest | lib/pesapal.ts:128-137 | every privileged request carries `Authorization: Bearer <token>` for a truthy token |
| Pesapal.TokenOf | lib/pesapal.ts:141 | a token is granted exactly when the token response succeeded with a truthy `token` field, and the granted token is that field |
| Pesapal.ContinueWithToken | lib/pesapal.ts:139-145 | without a token nothing more is sent, and the call fails ("did not return an access token" when the token response itself succeeded); with one, exactly the call's request is sent next, bearing that token, and the result is what its response is interpreted as |
| Pesapal.WithToken | lib/pesapal.ts:139-145 | sends at most two requests and keeps the history; it sends two exactly when a token is granted, unauthenticated token request first; otherwise it fails, having sent only what the token step sent, and a failed token step's error is passed on unchanged; the first request is always the token step's own; the second request is the call's, bearing the granted token, and the result is what that request's response is interpreted as |
| Pesapal.RegisterIpn | lib/pesapal.ts:147-161 | an empty URL fails with "An IPN URL is required" before anything is sent; otherwise it POSTs to `/URLSetup/RegisterIPN` exactly when a token is granted, with the URL and a notification type that defaults to `POST`. Every operation keeps the request history as a prefix; once past its own checks it starts with the token step, stops after it when no token is granted, and passes on its error; and when it sends its request, that request bears the granted token and the result is what its response is interpreted as |
| Pesapal.ListIpns | lib/pesapal.ts:163-170 | GETs `/URLSetup/GetIpnList` without a body exactly when a token is granted, and fails otherwise. Every operation keeps the request history as a prefix; once past its own checks it starts with the token step, stops after it when no token is granted, and passes on its error; and when it sends its request, that request bears the granted token and the result is what its response is interpreted as |
| Pesapal.GetTransactionStatus | lib/pesapal.ts:225-235 | an empty tracking id fails before anything is sent; otherwise it GETs the status URL with the id in the query exactly when a token is granted. Every operation keeps the request history as a prefix; once past its own checks it starts with the token step, stops after it when no token is granted, and passes on its error; and when it sends its request, that request bears the granted token and the result is what its response is interpreted as |
| Pesapal.TransactionStatusRequestShape | lib/pesapal.ts:230-234 | the status request is a GET of `/Transactions/GetTransactionStatus` with the id in the query and no body |
| Pesapal.CancelOrderRequestShape | lib/pesapal.ts:242-249 | the cancel request is a POST to `/Transactions/CancelOrder` whose body holds `order_tracking_id` |
| Pesapal.CancelOrder | lib/pesapal.ts:237-250 | an empty tracking id fails before anything is sent; otherwise it POSTs `/Transactions/CancelOrder` with `order_tracking_id` exactly when a token is granted. Every operation keeps the request history as a prefix; once past its own checks it starts with the token step, stops after it when no token is granted, and passes on its error; and when it sends its request, that request bears the granted token and the result is what its response is interpreted as |
| Pesapal.SubmitOrderBody | lib/pesapal.ts:189-207 | the body is an object; `account_number` is present exactly when the account number is non-empty, and `subscription_details` exactly when details are given |
| Pesapal.OrderBodyKeySet | lib/pesapal.ts:190-207 | a submit-order body has exactly the eight required keys, plus `account_number` when the account number is sent and `subscription_details` when details are given, and no other |
| Pesapal.MapBillingAddress | lib/pesapal.ts:172-187 | the billing address is sent as a JSON object |
| Pesapal.BillingKeySet | lib/pesapal.ts:173-186 | a mapped billing address has exactly the twelve billing keys and no other |
| Pesapal.BillingFieldsAreStrings | lib/pesapal.ts:172-187 | every field of the mapped billing address is a string |
| Pesapal.BillingNameFields | lib/pesapal.ts:172-179 | email, phone, country code and first name are copied to their snake_case keys |
| Pesapal.BillingOptionalNameFields | lib/pesapal.ts:178-181 | an absent middle name, line 1 or line 2 is sent as `""`; the last name is copied |
| Pesapal.BillingPlaceFields | lib/pesapal.ts:182-185 | an absent city, state, postal code or zip code is sent as `""` |
| Pesapal.BillingRoundTrip | lib/pesapal.ts:172-187 | the mapped billing address reads back as the input, with absent fields as `""` |
| Pesapal.OrderIdFields | lib/pesapal.ts:191-192 | the merchant reference is sent as `id`, and the currency is copied |
| Pesapal.OrderAmountFields | lib/pesapal.ts:193-194 | the amount and description are copied |
| Pesapal.OrderRoutingFields | lib/pesapal.ts:195-196 | the callback URL and notification id are copied |
| Pesapal.OrderBranchFields | lib/pesapal.ts:197-198 | an absent branch is sent as `""`; the billing address is mapped |
| Pesapal.OrderOptionalFields | lib/pesapal.ts:201-207 | a non-empty account number is sent as is and otherwise left out; subscription details are mapped when given and left out otherwise |
| Pesapal.MapSubscriptionDetails | lib/pesapal.ts:218-223 | the details are sent as an object with exactly the keys `start_date`, `end_date` and `frequency`, each a string |
| Pesapal.SubscriptionDetailsRoundTrip | lib/pesapal.ts:218-223 | the mapped subscription details read back unchanged |
| Pesapal.OrderBodyRoundTrip | lib/pesapal.ts:189-207 | the wire body reads back as the order with only the defaults applied, so nothing else is lost |
| Pesapal.OrderBodyDeterminesNormalizedOrder | lib/pesapal.ts:189-207 | two orders send the same body exactly when they agree once the defaults are applied |
| Pesapal.SubmitOrderRequestShape | lib/pesapal.ts:209-214 | the order request is a POST to `/Transactions/SubmitOrderRequest` whose body is the given one |
| Pesapal.SubmitOrderRequest | lib/pesapal.ts:189-216 | POSTs `/Transactions/SubmitOrderRequest` with exactly that body exactly when a token is granted; fails otherwise. Every operation keeps the request history as a prefix; once past its own checks it starts with the token step, stops after it when no token is granted, and passes on its error; and when it sends its request, that request bears the granted token and the result is what its response is interpreted as |
| IpnLog.EntryRoundTrip | lib/ipn-log.ts:29-33 | an entry's JSON form reads back as the entry; an absent parsed body stays absent |
| IpnLog.StoredEntry | lib/ipn-log.ts:29-36 | a written entry keeps its raw body, its arrival time and whether it has a parsed body; an entry without non-finite numbers is kept exactly |
| IpnLog.EntrySerialized | lib/ipn-log.ts:29-36 | writing an entry and reading it back gives its stored form |
| IpnLog.EntriesToJson | lib/ipn-log.ts:35-36 | the entries are written one object per entry, in order |
| IpnLog.EnsureLogFile | lib/ipn-log.ts:12-19 | afterwards the file exists; an existing file is untouched and a missing one becomes `[]` |
| IpnLog.ReadIpnLog | lib/ipn-log.ts:40-49 | creates the file if needed, returns the stored array when the contents parse as one, and returns an empty list otherwise |
| IpnLog.FirstReadIsEmpty | lib/ipn-log.ts:12-49 | reading before anything was logged creates `[]` and returns no entries; it needs only that `[]` parses as the empty array |
| IpnLog.AppendIpnLog | lib/ipn-log.ts:21-38 | the entry keeps the raw body verbatim and the arrival time, and its parsed body is present exactly when the raw text parses; the file is rewritten as the old entries followed by the new one |
| IpnLog.StoredNumbersParsed | lib/ipn-log.ts:29-36 | what an append writes holds only parsed numbers: the earlier entries came from a parse, and the new entry holds strings and the parse of its body |
| IpnLog.AppendThenRead | lib/ipn-log.ts:21-49 | after an append, a read returns the earlier entries as written and read back, followed by exactly the new entry, which reads back as its stored form; earlier entries without non-finite numbers come back unchanged |
| IpnLog.AppendToCorruptStore | lib/ipn-log.ts:34-47 | appending to a file that does not hold a JSON array discards its contents and leaves only the new entry, in its stored form |
| IpnLog.AppendAll | lib/ipn-log.ts:21-38 | a run of deliveries logs one entry per delivery, in order, with its raw body and arrival time |
| IpnLog.AppendAllThenRead | lib/ipn-log.ts:21-49 | after any run of appends, a read returns the earlier entries followed by the new ones in arrival order (append-only), each as written and read back |
| IpnLog.AppendAllParses | lib/ipn-log.ts:23-28 | every logged entry's parsed body is what its raw text parses to |
| IpnLog.DecodeEntries | lib/ipn-log.ts:29-36 | a list of entries in JSON form reads back as those entries |
| IpnLog.DecodeStoredEntries | lib/ipn-log.ts:40-45 | a list of entries written and read back decodes to their stored forms, one per entry, in order |
| IpnLog.FreshLogReadsBackDeliveries | lib/ipn-log.ts:12-49 | starting from no file, the log reads back every delivery in order, with its raw body verbatim, its arrival time and the serialized parse of its body |
| OrderForm.FormatDateForPesapal | app/page.tsx:665-673 | `""` maps to `""` and nothing else does; the result is never longer than the input |
| OrderForm.FormatDateSwapsYearAndDay | app/page.tsx:669-673 | a well-formed `y-m-d` becomes `d-m-y` |
| OrderForm.FormatDateDropsExtraSegments | app/page.tsx:669-673 | segments after the third are dropped: `y-m-d-t` becomes `d-m-y` |
| OrderForm.FormatDateIsInvolution | app/page.tsx:665-674 | on a well-formed date the rewrite keeps the length and undoes itself |
| OrderForm.FormatDateOfShape | app/page.tsx:669-673 | any text made of three non-empty `-`-free segments, followed by nothing or by more `-`-separated text, becomes `d-m-y` |
| OrderForm.FormatDateChangesOnlyDates | app/page.tsx:669-671 | conversely, the rewrite changes only such date-shaped text: every other input, including one with an empty month or day, is returned unchanged |
| OrderForm.FormatDateKeepsEmptyMonth | app/page.tsx:670-671 | text with an empty month, such as `2024--05`, passes through unchanged |
| OrderForm.FormatDateKeepsEmptyDay | app/page.tsx:670-671 | text with an empty day, such as `2024-05-` or `2024-05--x`, passes through unchanged |
| OrderForm.FormatDateKeepsUndelimited | app/page.tsx:670-671 | text without `-` passes through unchanged |
| OrderForm.FormatDateKeepsTwoSegments | app/page.tsx:670-671 | text with one `-` (a missing day) passes through unchanged |
| OrderForm.FormatDateKeepsEmptyYear | app/page.tsx:670-671 | text starting with `-` (an empty year) passes through unchanged |
| OrderForm.ValidateSubscriptionForm | app/page.tsx:647-663 | the missing-dates message appears exactly when a date is empty; the form is accepted exactly when both dates and a frequency are given, both dates parse, and the start is not after the end; each message appears exactly when its check is the first to fail: the frequency message when both dates are given but no frequency, the invalid-dates message when a date then does not parse, and the date-order message when both parse and the start is later; only the four messages occur |
| OrderForm.SameDayIsAccepted | app/page.tsx:659 | equal start and end dates are accepted |
| OrderForm.TrimmedAccount | app/page.tsx:631 | a blank account number is dropped and any other is trimmed |
| OrderForm.BuildSubmitOrderPayload | app/page.tsx:624-645 | the account number is dropped exactly when absent or blank and is trimmed otherwise; subscription details are present exactly when enabled, with both dates reformatted and the frequency copied; every other field is unchanged |
| OrderForm.DecideSubmitOrder | app/page.tsx:156-171 | a missing notification id is reported first; the order is sent exactly when there is a notification id and the subscription is disabled or valid, and the payload sent is the built one; a validation message is reported as is |
| OrderForm.DisabledSubscriptionIsIgnored | app/page.tsx:633-642 | with the subscription off, the subscription form has no effect on the outcome |
| OrderForm.SubmittedSubscriptionOnTheWire | app/page.tsx:156-171 | a submitted order sends `subscription_details` exactly when the subscription is on, and they decode to the reformatted dates and the chosen frequency |
| OrderForm.Reverse | app/page.tsx:215 | `[...items].reverse()` keeps the length and puts element `i` at position `n-1-i` |
| OrderForm.ReverseIsInvolution | app/page.tsx:215 | reversing twice gives back the list |
| OrderForm.LogsToDisplay | app/page.tsx:209-222 | an array response is shown reversed, with every entry kept; any other response leaves the display as it was |
| OrderForm.NewestEntryShownFirst | app/page.tsx:209-216 | after a callback is logged, a refresh shows that entry first, in its stored form |

## Left out

- React rendering and UI state are left out. Loading flags, form field updates and the other handlers (fetch token, register IPN, list IPNs, check status, cancel) are not modelled, because they only move values between inputs and the API routes.
- The HTTP route handlers under `app/api/pesapal` and the server-rendered `app/pesapal/response/page.tsx` are left out. They pass requests through to the functions modelled here and turn exceptions into 400 and 500 responses.
- Reading the environment, the filesystem, `fetch` and the clock are left out as effects. They appear as inputs instead: a `Config`, a `LogFile` value, the `Network` oracle, and a `receivedAt` argument.
- Creating the `data` directory is not modelled.
- Concurrent appends to the IPN log are not modelled. Two overlapping appends can lose an entry, because each reads the whole file and writes it back. Every operation here runs on its own.
- The exact text of `JSON.parse` and `JSON.stringify` is not modelled, including key order and the two-space indentation of the log file. A `Codec` stands for both.
- `cache: "no-store"` and the other transport options of `fetch` are left out, because they have no effect on the client's logic.
- The header names' case-insensitivity in `Headers` is not modelled. Headers are a map keyed by the exact names the client uses.
- The value checks of `headers.set` are not modelled. It strips leading and trailing HTTP whitespace from a value, and it throws a `TypeError` for a value holding a character above U+00FF or an inner CR, LF or NUL. For such a token the source sends no second request, while the model sends it with the token as printed.
- A `fetch` that rejects (a network error) and a `response.text()` that rejects are not modelled. The `Network` oracle always answers, so `Pesapal.AnswersLast` holds of every run that sends a request, while the source would throw a `TypeError` from the transport instead.
- JavaScript `Date` parsing and comparison are a parameter. `randomReference`, ISO timestamps and the `Date` taken at append time are inputs.
- JavaScript numbers are opaque text, so arithmetic and number formatting are not modelled.
- JsText.AsciiLower: lower-cases only `A`–`Z`, weaker than `toLowerCase`, which handles all of Unicode. The only non-ASCII character that lower-cases to an ASCII letter is the Kelvin sign, which becomes `k`, and `k` is in neither `sandbox` nor `live`. So the accepted environments agree with the source; only the text of the error for a non-ASCII setting can differ.
- Pesapal.CallRequest: states only the `Authorization` header. The URL, method and body of each call are stated on the operation that makes the call (`Pesapal.RegisterIpn` and the others) and on the `…RequestShape` lemmas.
- Pesapal.MapBillingAddress: its own contract says only that the result is an object, which keeps the proofs of its callers small. The exact key set is stated by `Pesapal.BillingKeySet`, the values by `Pesapal.BillingFieldsAreStrings`, the `Billing…Fields` lemmas and `Pesapal.BillingRoundTrip`.
- Json.JsString: states how strings, numbers, booleans, objects, `null`, empty arrays and one-string arrays print. Arrays of several elements print through `Json.JoinElements`, which carries no contract of its own.
- Json.Serialized: treats a number as non-finite exactly when its text is `Infinity`, `-Infinity` or `NaN`, which is how such values print; the numeric range of a double is not modelled.
- The TypeScript types `SubscriptionFrequency` and `ipnNotificationType` restrict values to a few literals. The model uses plain strings, as the code never checks these values.

=== FILE: ipn_log.dfy ===
/**
 * The append-only callback (IPN) log: a JSON array of entries kept in one
 * file that is read whole, extended and rewritten whole on every append.
 */
module IpnLog {
  import opened Wrappers
  import opened Json

  /** One received notification: when, the body verbatim, and its best-effort JSON parse. */
  datatype IpnLogEntry = IpnLogEntry(receivedAt: string, raw: string, parsed: Option<Json>)

  /** The log file: absent, or present with some text. */
  datatype LogFile = Missing | Stored(contents: string)

  /** An entry as it is written: `JSON.stringify` drops an undefined `parsed`. */
  function EntryToJson(e: IpnLogEntry): Json {
    match e.parsed
    case Some(p) => JObj(map["receivedAt" := JStr(e.receivedAt), "raw" := JStr(e.raw), "parsed" := p])
    case None => JObj(map["receivedAt" := JStr(e.receivedAt), "raw" := JStr(e.raw)])
  }

  /** Reads a stored entry back. */
  function EntryFromJson(j: Json): Option<IpnLogEntry> {
    var receivedAt :- GetString(j, "receivedAt");
    var raw :- GetString(j, "raw");
    Some(IpnLogEntry(receivedAt, raw, Prop(j, "parsed")))
  }

  /** A written entry reads back as itself. */
  lemma EntryRoundTrip(e: IpnLogEntry)
    ensures EntryFromJson(EntryToJson(e)) == Some(e)
  {
  }

  /**
   * An entry as a later read sees it. `JSON.stringify` writes a non-finite
   * number inside `parsed` as `null`; the rest of the entry is kept.
   */
  function StoredEntry(e: IpnLogEntry): (r: IpnLogEntry)
    ensures r.raw == e.raw && r.receivedAt == e.receivedAt
    ensures r.parsed.Some? <==> e.parsed.Some?
    ensures e.parsed.None? || Serialized(e.parsed.value) == e.parsed.value ==> r == e
  {
    e.(parsed := SerializedOpt(e.parsed))
  }

  /** `Serialized` on a possibly undefined value. */
  function SerializedOpt(v: Option<Json>): Option<Json> {
    if v.Some? then Some(Serialized(v.value)) else None
  }

  /** Writing an entry and parsing it back gives the stored form of the entry. */
  lemma EntrySerialized(e: IpnLogEntry)
    ensures Serialized(EntryToJson(e)) == EntryToJson(StoredEntry(e))
  {
    var m := EntryToJson(e).fields;
    assert (map k | k in m :: Serialized(m[k])) == EntryToJson(StoredEntry(e)).fields;
  }

  /** The entries as they are written, in order. */
  function EntriesToJson(es: seq<IpnLogEntry>): (r: seq<Json>)
    ensures |r| == |es|
    ensures forall i :: 0 <= i < |es| ==> r[i] == EntryToJson(es[i])
    decreases |es|
  {
    if |es| == 0 then [] else [EntryToJson(es[0])] + EntriesToJson(es[1..])
  }

  /** `ensureLogFile`: a missing file is created holding the empty array; a present one is left alone. */
  function EnsureLogFile(f: LogFile): (r: LogFile)
    ensures r.Stored?
    ensures f.Stored? ==> r == f
    ensures f.Missing? ==> r == Stored("[]")
  {
    if f.Missing? then Stored("[]") else f
  }

  datatype LogRead = LogRead(file: LogFile, entries: seq<Json>)

  /**
   * `readIpnLog`: the stored array, oldest entry first, or the empty list
   * when the file does not hold a JSON array.
   */
  function ReadIpnLog(c: Codec, f: LogFile): (r: LogRead)
    ensures r.file == EnsureLogFile(f)
    ensures r.entries != [] ==> c.parse(r.file.contents) == Some(JArr(r.entries))
    ensures (match c.parse(r.file.contents) case Some(JArr(xs)) => r.entries == xs case _ => r.entries == [])
  {
    var file := EnsureLogFile(f);
    match c.parse(file.contents)
    case Some(JArr(xs)) => LogRead(file, xs)
    case _ => LogRead(file, [])
  }

  datatype Appended = Appended(file: LogFile, entry: IpnLogEntry)

  /**
   * `appendIpnLog`: parses the body best-effort, reads the log, pushes the
   * new entry and rewrites the whole file; returns the stored entry.
   */
  function AppendIpnLog(c: Codec, f: LogFile, raw: string, receivedAt: string): (r: Appended)
    ensures r.entry.raw == raw
    ensures r.entry.parsed == c.parse(raw)
    ensures r.entry.receivedAt == receivedAt
    ensures r.file == Stored(c.stringify(JArr(ReadIpnLog(c, f).entries + [EntryToJson(r.entry)])))
  {
    var file := EnsureLogFile(f);
    var entry := IpnLogEntry(receivedAt, raw, c.parse(raw));
    var read := ReadIpnLog(c, file);
    Appended(Stored(c.stringify(JArr(read.entries + [EntryToJson(entry)]))), entry)
  }

  /** The first read of a missing log yields the empty list. */
  lemma FirstReadIsEmpty(c: Codec)
    requires ParsesEmptyArray(c)
    ensures ReadIpnLog(c, Missing) == LogRead(Stored("[]"), [])
  {
  }

  /**
   * An append adds exactly one entry at the end, which reads back as the
   * stored form of the returned entry. Every earlier entry keeps its place.
   * Its content is kept too, except that `JSON.stringify` writes a
   * non-finite number as `null`.
   */
  lemma AppendThenRead(c: Codec, f: LogFile, raw: string, receivedAt: string)
    requires Lawful(c)
    ensures var a := AppendIpnLog(c, f, raw, receivedAt);
            var before := ReadIpnLog(c, f).entries;
            var after := ReadIpnLog(c, a.file).entries;
            && after == SerializedItems(before) + [EntryToJson(StoredEntry(a.entry))]
            && after == SerializedItems(before + [EntryToJson(a.entry)])
            && |after| == |before| + 1
            && (SerializedItems(before) == before ==> after[..|before|] == before)
            && EntryFromJson(after[|before|]) == Some(StoredEntry(a.entry))
  {
    var a := AppendIpnLog(c, f, raw, receivedAt);
    var before := ReadIpnLog(c, f).entries;
    var written := before + [EntryToJson(a.entry)];
    var after := ReadIpnLog(c, a.file).entries;
    assert after == SerializedItems(written) by {
      assert RoundTrips(c, JArr(written)) by {
        StoredNumbersParsed(c, f, a.entry);
      }
    }
    assert SerializedItems(written) == SerializedItems(before) + [EntryToJson(StoredEntry(a.entry))] by {
      SerializedItemsConcat(before, [EntryToJson(a.entry)]);
      EntrySerialized(a.entry);
    }
    assert EntryFromJson(after[|before|]) == Some(StoredEntry(a.entry)) by {
      EntryRoundTrip(StoredEntry(a.entry));
    }
  }

  /**
   * What an append writes holds only parsed numbers: the earlier entries
   * come from a parse, and the new entry holds strings and the parse of
   * its body.
   */
  lemma StoredNumbersParsed(c: Codec, f: LogFile, e: IpnLogEntry)
    requires Lawful(c)
    requires e.parsed.Some? ==> c.parse(e.raw) == e.parsed
    ensures ParsedNumbers(c, JArr(ReadIpnLog(c, f).entries + [EntryToJson(e)]))
  {
    var read := ReadIpnLog(c, f);
    assert ParsedNumbers(c, JArr(read.entries)) by {
      if read.entries != [] {
        assert Parsed(c, read.file.contents).Some?;
      }
    }
    assert ParsedNumbers(c, EntryToJson(e)) by {
      if e.parsed.Some? {
        assert Parsed(c, e.raw).Some?;
      }
    }
    var all := read.entries + [EntryToJson(e)];
    forall i | 0 <= i < |all| ensures ParsedNumbers(c, all[i]) {
      if i < |read.entries| {
        assert all[i] == read.entries[i];
      }
    }
  }

  /** Appending to a corrupt or non-array file discards what was there. */
  lemma AppendToCorruptStore(c: Codec, f: LogFile, raw: string, receivedAt: string)
    requires Lawful(c)
    requires f.Stored?
    requires c.parse(f.contents).None? || !c.parse(f.contents).value.JArr?
    ensures var a := AppendIpnLog(c, f, raw, receivedAt);
            ReadIpnLog(c, a.file).entries == [EntryToJson(StoredEntry(a.entry))]
  {
    AppendThenRead(c, f, raw, receivedAt);
  }

  /** A notification as it arrives: its receipt time and raw body. */
  datatype Delivery = Delivery(receivedAt: string, raw: string)

  datatype Batch = Batch(file: LogFile, entries: seq<IpnLogEntry>)

  /** Appends the deliveries one after another; returns the file and the returned entries. */
  function AppendAll(c: Codec, f: LogFile, ds: seq<Delivery>): (r: Batch)
    ensures |r.entries| == |ds|
    ensures forall i :: 0 <= i < |ds| ==> r.entries[i].raw == ds[i].raw && r.entries[i].receivedAt == ds[i].receivedAt
    decreases |ds|
  {
    if |ds| == 0 then Batch(f, [])
    else
      var a := AppendIpnLog(c, f, ds[0].raw, ds[0].receivedAt);
      var rest := AppendAll(c, a.file, ds[1..]);
      Batch(rest.file, [a.entry] + rest.entries)
  }

  /**
   * After any sequence of appends, the log reads as what it held before
   * followed by the appended entries, in append order, all in serialized
   * form. With no appends the file is untouched.
   */
  lemma {:induction false} AppendAllThenRead(c: Codec, f: LogFile, ds: seq<Delivery>)
    requires Lawful(c)
    ensures var b := AppendAll(c, f, ds);
            var before := ReadIpnLog(c, f).entries;
            ReadIpnLog(c, b.file).entries
              == if |ds| == 0 then before else SerializedItems(before + EntriesToJson(b.entries))
    decreases |ds|
  {
    var b := AppendAll(c, f, ds);
    if |ds| > 0 {
      var a := AppendIpnLog(c, f, ds[0].raw, ds[0].receivedAt);
      var rest := AppendAll(c, a.file, ds[1..]);
      assert b == Batch(rest.file, [a.entry] + rest.entries);
      var before := ReadIpnLog(c, f).entries;
      var first := before + [EntryToJson(a.entry)];
      var mid := ReadIpnLog(c, a.file).entries;
      assert mid == SerializedItems(first) by {
        AppendThenRead(c, f, ds[0].raw, ds[0].receivedAt);
      }
      var more := EntriesToJson(rest.entries);
      assert first + more == before + EntriesToJson(b.entries) by {
        assert b.entries[1..] == rest.entries;
        assert EntriesToJson(b.entries) == [EntryToJson(a.entry)] + more;
        ConcatAssociative(before, [EntryToJson(a.entry)], more);
      }
      if |ds| == 1 {
        assert more == [];
        assert ReadIpnLog(c, b.file).entries == mid by {
          AppendAllThenRead(c, a.file, ds[1..]);
        }
      } else {
        assert ReadIpnLog(c, b.file).entries == SerializedItems(mid + more) by {
          AppendAllThenRead(c, a.file, ds[1..]);
        }
        assert SerializedItems(mid + more) == SerializedItems(first + more) by {
          SerializedExtend(first, more);
        }
      }
    }
  }

  /**
   * Concatenation regroups freely. Kept as a lemma so that each step that
   * uses it, here and in the date rewrite, is proved without the
   * surrounding facts in view.
   */
  lemma ConcatAssociative<T>(x: seq<T>, y: seq<T>, z: seq<T>)
    ensures (x + y) + z == x + (y + z)
  {
  }

  /** Reads every stored entry back, or fails if one is not an entry. */
  function DecodeLog(js: seq<Json>): Option<seq<IpnLogEntry>>
    decreases |js|
  {
    if |js| == 0 then Some([])
    else
      var e :- EntryFromJson(js[0]);
      var rest :- DecodeLog(js[1..]);
      Some([e] + rest)
  }

  lemma {:induction false} DecodeEntries(es: seq<IpnLogEntry>)
    ensures DecodeLog(EntriesToJson(es)) == Some(es)
    decreases |es|
  {
    if |es| > 0 {
      EntryRoundTrip(es[0]);
      DecodeEntries(es[1..]);
      assert es == [es[0]] + es[1..];
    }
  }

  /** The serialized entries read back as the stored forms of the entries. */
  lemma {:induction false} DecodeStoredEntries(es: seq<IpnLogEntry>)
    ensures var logged := DecodeLog(SerializedItems(EntriesToJson(es)));
            && logged.Some? && |logged.value| == |es|
            && forall i :: 0 <= i < |es| ==> logged.value[i] == StoredEntry(es[i])
    decreases |es|
  {
    if |es| > 0 {
      var js := SerializedItems(EntriesToJson(es));
      EntrySerialized(es[0]);
      EntryRoundTrip(StoredEntry(es[0]));
      assert EntryFromJson(js[0]) == Some(StoredEntry(es[0]));
      assert js[1..] == SerializedItems(EntriesToJson(es[1..]));
      DecodeStoredEntries(es[1..]);
    }
  }

  /**
   * Appending n notifications to a fresh log and reading it yields exactly
   * n entries, in delivery order, each with its body verbatim and the
   * serialized parse of that body.
   */
  lemma FreshLogReadsBackDeliveries(c: Codec, ds: seq<Delivery>)
    requires Lawful(c)
    ensures var b := AppendAll(c, Missing, ds);
            var logged := DecodeLog(ReadIpnLog(c, b.file).entries);
            && logged.Some?
            && |logged.value| == |ds|
            && forall i :: 0 <= i < |ds| ==>
                 && logged.value[i] == StoredEntry(b.entries[i])
                 && logged.value[i].raw == ds[i].raw
                 && logged.value[i].receivedAt == ds[i].receivedAt
                 && logged.value[i].parsed == SerializedOpt(c.parse(ds[i].raw))
  {
    var b := AppendAll(c, Missing, ds);
    AppendAllThenRead(c, Missing, ds);
    assert ReadIpnLog(c, Missing).entries == [];
    assert [] + EntriesToJson(b.entries) == EntriesToJson(b.entries);
    assert ReadIpnLog(c, b.file).entries == SerializedItems(EntriesToJson(b.entries));
    DecodeStoredEntries(b.entries);
    AppendAllParses(c, Missing, ds);
  }

  /** Every entry of a batch holds the parse of its own body. */
  lemma {:induction false} AppendAllParses(c: Codec, f: LogFile, ds: seq<Delivery>)
    ensures var b := AppendAll(c, f, ds);
            forall i :: 0 <= i < |ds| ==> b.entries[i].parsed == c.parse(ds[i].raw)
    decreases |ds|
  {
    if |ds| > 0 {
      var a := AppendIpnLog(c, f, ds[0].raw, ds[0].receivedAt);
      AppendAllParses(c, a.file, ds[1..]);
    }
  }
}

=== FILE: json.dfy ===
/**
 * JSON values as JavaScript sees them after `JSON.parse`, together with the
 * few JavaScript value semantics the client relies on: truthiness, `typeof`,
 * property access and `String()` conversion.
 */
module Json {
  import opened Wrappers

  /**
   * A JavaScript number, kept opaque: only the text `String()` prints for it
   * is carried, which is all the client ever does with one besides copying it.
   */
  datatype Number = Number(text: string)

  datatype Json =
    | JNull
    | JBool(b: bool)
    | JNum(n: Number)
    | JStr(s: string)
    | JArr(items: seq<Json>)
    | JObj(fields: map<string, Json>)

  /** JavaScript truthiness: `null`, `false`, `0`, `NaN` and `""` are falsy. */
  predicate Truthy(j: Json)
    ensures j.JArr? || j.JObj? ==> Truthy(j)
    ensures j.JStr? ==> (Truthy(j) <==> j.s != "")
    ensures j.JNull? ==> !Truthy(j)
  {
    match j
    case JNull => false
    case JBool(b) => b
    case JNum(n) => n.text != "0" && n.text != "NaN"
    case JStr(s) => s != ""
    case JArr(_) => true
    case JObj(_) => true
  }

  /** Truthiness of a possibly `undefined` value. */
  predicate TruthyOpt(v: Option<Json>) {
    v.Some? && Truthy(v.value)
  }

  /** `typeof v === "object"`, which holds of `null` and of arrays as well. */
  predicate IsObjectType(j: Json) {
    j.JNull? || j.JArr? || j.JObj?
  }

  /**
   * Property access `v[key]` for the data keys the client reads (`error`,
   * `message`, `code`, `token`): only a plain object carries them.
   */
  function Prop(j: Json, key: string): Option<Json> {
    if j.JObj? && key in j.fields then Some(j.fields[key]) else None
  }

  /** `v[key]` when it is a string, else `None`. */
  function GetString(j: Json, key: string): Option<string> {
    match Prop(j, key)
    case Some(JStr(s)) => Some(s)
    case _ => None
  }

  /** `String(v)`: what a template literal `${v}` prints for the value. */
  function JsString(j: Json): (r: string)
    ensures j.JStr? ==> r == j.s
    ensures j.JObj? ==> r == "[object Object]"
    ensures j.JArr? && |j.items| == 1 && j.items[0].JStr? ==> r == j.items[0].s
    ensures j.JArr? && |j.items| == 0 ==> r == ""
    ensures j.JNull? ==> r == "null"
    ensures j.JNum? ==> r == j.n.text
    ensures j.JBool? ==> r == (if j.b then "true" else "false")
    decreases j
  {
    match j
    case JNull => "null"
    case JBool(b) => if b then "true" else "false"
    case JNum(n) => n.text
    case JStr(s) => s
    case JArr(items) => JoinElements(items)
    case JObj(_) => "[object Object]"
  }

  /** `Array.prototype.join(",")`, which prints `null` elements as "". */
  function JoinElements(items: seq<Json>): string
    decreases items
  {
    if |items| == 0 then ""
    else
      var head := if items[0].JNull? then "" else JsString(items[0]);
      if |items| == 1 then head else head + "," + JoinElements(items[1..])
  }

  /**
   * A finite number. `JSON.parse` yields `Infinity` for out-of-range
   * literals such as `1e400`, and `JSON.stringify` writes `Infinity`,
   * `-Infinity` and `NaN` as `null`.
   */
  predicate IsFinite(n: Number) {
    n.text != "Infinity" && n.text != "-Infinity" && n.text != "NaN"
  }

  /**
   * What `JSON.parse(JSON.stringify(v))` gives back for `v`: every
   * non-finite number becomes `null`, and everything else is kept.
   */
  function Serialized(j: Json): (r: Json)
    ensures j.JStr? || j.JBool? || j.JNull? ==> r == j
    ensures j.JNum? ==> r == (if IsFinite(j.n) then j else JNull)
    ensures j.JObj? ==> r.JObj? && r.fields.Keys == j.fields.Keys
    decreases j
  {
    match j
    case JNum(n) => if IsFinite(n) then j else JNull
    case JArr(items) => JArr(SerializedItems(items))
    case JObj(fields) => JObj(map k | k in fields :: Serialized(fields[k]))
    case _ => j
  }

  /** `Serialized` applied to each element, in order. */
  function SerializedItems(items: seq<Json>): (r: seq<Json>)
    ensures |r| == |items|
    ensures forall i :: 0 <= i < |items| ==> r[i] == Serialized(items[i])
    decreases items
  {
    if |items| == 0 then [] else [Serialized(items[0])] + SerializedItems(items[1..])
  }

  /** Serializing a concatenation serializes each part. */
  lemma SerializedItemsConcat(a: seq<Json>, b: seq<Json>)
    ensures SerializedItems(a + b) == SerializedItems(a) + SerializedItems(b)
  {
  }

  /** A serialized value serializes to itself: a second write and read changes nothing. */
  lemma {:induction false} SerializedIdempotent(j: Json)
    ensures Serialized(Serialized(j)) == Serialized(j)
    decreases j
  {
    match j
    case JArr(items) =>
      forall i | 0 <= i < |items| {
        SerializedIdempotent(items[i]);
      }
      assert SerializedItems(SerializedItems(items)) == SerializedItems(items);
    case JObj(fields) =>
      var once := map k | k in fields :: Serialized(fields[k]);
      forall k | k in fields {
        SerializedIdempotent(fields[k]);
      }
      assert (map k | k in once :: Serialized(once[k])) == once;
    case _ =>
  }

  /** The element-wise form of `SerializedIdempotent`. */
  lemma SerializedItemsIdempotent(items: seq<Json>)
    ensures SerializedItems(SerializedItems(items)) == SerializedItems(items)
  {
    forall i | 0 <= i < |items| {
      SerializedIdempotent(items[i]);
    }
  }

  /** Serializing a serialized prefix again before extending it changes nothing. */
  lemma SerializedExtend(a: seq<Json>, b: seq<Json>)
    ensures SerializedItems(SerializedItems(a) + b) == SerializedItems(a + b)
  {
    SerializedItemsConcat(SerializedItems(a), b);
    SerializedItemsIdempotent(a);
    SerializedItemsConcat(a, b);
  }

  /**
   * `JSON.parse` and `JSON.stringify`, left abstract: `parse` yields `None`
   * where the built-in throws.
   */
  datatype Codec = Codec(parse: string -> Option<Json>, stringify: Json -> string)

  /**
   * What the model assumes of the built-ins:
   * - every value `parse` yields holds only numbers `parse` can yield;
   * - parsing the stringified text of such a value gives back its
   *   serialized form;
   * - "[]" is the empty array.
   * The values the client ever holds are parsed ones, or built from parsed
   * ones and strings, so they all meet the first condition.
   */
  ghost predicate Lawful(c: Codec) {
    && (forall j :: ParsedNumbers(c, j) ==> RoundTrips(c, j))
    && (forall s :: Parsed(c, s).Some? ==> ParsedNumbers(c, Parsed(c, s).value))
    && ParsesEmptyArray(c)
  }

  /**
   * `c.parse(s)`, named so that the second condition of `Lawful` is used
   * only where a proof mentions it.
   */
  ghost function Parsed(c: Codec, s: string): (r: Option<Json>)
    ensures r == c.parse(s)
  {
    c.parse(s)
  }

  /**
   * Every number inside `j` is one `parse` yields for some text. Number
   * texts that no JavaScript number prints as, such as "1.0" or "01", are
   * not among them.
   */
  ghost predicate ParsedNumbers(c: Codec, j: Json)
    decreases j
  {
    match j
    case JNum(n) => exists s :: c.parse(s) == Some(JNum(n))
    case JArr(items) => forall i :: 0 <= i < |items| ==> ParsedNumbers(c, items[i])
    case JObj(fields) => forall k :: k in fields ==> ParsedNumbers(c, fields[k])
    case _ => true
  }

  /**
   * A number text that `parse` never yields, such as "1.0", is outside what
   * `Lawful` asks to round-trip.
   */
  lemma UnparsedNumberIsExempt(c: Codec, n: Number)
    requires forall s :: c.parse(s) != Some(JNum(n))
    ensures !ParsedNumbers(c, JNum(n))
    ensures !ParsedNumbers(c, JArr([JNum(n)]))
  {
    assert JArr([JNum(n)]).items[0] == JNum(n);
  }

  /** `JSON.parse("[]")` is the empty array. */
  predicate ParsesEmptyArray(c: Codec) {
    c.parse("[]") == Some(JArr([]))
  }

  /** Parsing the text `j` is stringified to gives `j` back, with its non-finite numbers as `null`. */
  ghost predicate RoundTrips(c: Codec, j: Json) {
    c.parse(c.stringify(j)) == Some(Serialized(j))
  }

  /** The client's `tryParseJson`: `null` where `JSON.parse` throws. */
  function TryParseJson(c: Codec, text: string): (r: Json)
    ensures c.parse(text).Some? ==> r == c.parse(text).value
    ensures c.parse(text).None? ==> r.JNull?
  {
    match c.parse(text)
    case Some(j) => j
    case None => JNull
  }
}

=== FILE: order_form.dfy ===
/**
 * The order form's pure logic: date reformatting, the payload handed to the
 * server, subscription validation, the guards run before submitting, and
 * the display order of the callback log.
 */
module OrderForm {
  import opened Wrappers
  import opened Json
  import opened JsText
  import opened Pesapal
  import IpnLog

  // ---------------------------------------------------------------- dates

  /** A join is at least as long as its first three parts and the two separators between them. */
  lemma JoinFirstThreeLength(parts: seq<string>, sep: char)
    requires |parts| >= 3
    ensures |Join(parts, sep)| >= |parts[0]| + |parts[1]| + |parts[2]| + 2
  {
    var rest := parts[1..];
    assert rest[1..] == parts[2..];
    assert |Join(rest, sep)| == |parts[1]| + 1 + |Join(parts[2..], sep)|;
    assert |Join(parts[2..], sep)| >= |parts[2]|;
  }

  /**
   * `formatDateForPesapal`: "Y-M-D" becomes "D-M-Y" when the first three
   * `-`-separated segments are all non-empty (later segments are dropped);
   * any other input is returned unchanged, and "" stays "".
   */
  function FormatDateForPesapal(value: string): (r: string)
    ensures r == "" <==> value == ""
    ensures |r| <= |value|
  {
    if value == "" then ""
    else
      var parts := Split(value, '-');
      if |parts| < 3 || parts[0] == "" || parts[1] == "" || parts[2] == "" then value
      else
        JoinFirstThreeLength(parts, '-');
        parts[2] + "-" + parts[1] + "-" + parts[0]
  }

  /** A well-formed "y-m-d" date is rewritten as "d-m-y". */
  lemma FormatDateSwapsYearAndDay(y: string, m: string, d: string)
    requires y != "" && m != "" && d != ""
    requires '-' !in y && '-' !in m && '-' !in d
    ensures FormatDateForPesapal(y + "-" + m + "-" + d) == d + "-" + m + "-" + y
  {
    var value := y + "-" + m + "-" + d;
    assert value == y + ['-'] + (m + ['-'] + d);
    SplitCons(m, '-', d);
    assert Split(d, '-') == [d];
    SplitCons(y, '-', m + ['-'] + d);
    assert Split(value, '-') == [y, m, d];
  }

  /** Segments after the third are dropped: "y-m-d-t" is rewritten as "d-m-y". */
  lemma FormatDateDropsExtraSegments(y: string, m: string, d: string, t: string)
    requires y != "" && m != "" && d != ""
    requires '-' !in y && '-' !in m && '-' !in d
    ensures FormatDateForPesapal(y + "-" + m + "-" + d + "-" + t) == d + "-" + m + "-" + y
  {
    var value := y + "-" + m + "-" + d + "-" + t;
    assert value == y + ['-'] + (m + ['-'] + (d + ['-'] + t));
    SplitCons(d, '-', t);
    SplitCons(m, '-', d + ['-'] + t);
    SplitCons(y, '-', m + ['-'] + (d + ['-'] + t));
    var parts := Split(value, '-');
    assert parts[0] == y && parts[1] == m && parts[2] == d;
  }

  /** On a well-formed "y-m-d" date the rewrite keeps the length and undoes itself. */
  lemma FormatDateIsInvolution(y: string, m: string, d: string)
    requires y != "" && m != "" && d != ""
    requires '-' !in y && '-' !in m && '-' !in d
    ensures |FormatDateForPesapal(y + "-" + m + "-" + d)| == |y + "-" + m + "-" + d|
    ensures FormatDateForPesapal(FormatDateForPesapal(y + "-" + m + "-" + d)) == y + "-" + m + "-" + d
  {
    FormatDateSwapsYearAndDay(y, m, d);
    FormatDateSwapsYearAndDay(d, m, y);
  }

  /**
   * `value` is a date the rewrite applies to: three non-empty `-`-free
   * segments `y`, `m`, `d`, followed by nothing or by further segments.
   */
  predicate DateShaped(value: string, y: string, m: string, d: string, rest: string) {
    && y != "" && m != "" && d != ""
    && '-' !in y && '-' !in m && '-' !in d
    && (rest == "" || rest[0] == '-')
    && value == y + "-" + m + "-" + d + rest
  }

  /** Any date-shaped value, with or without extra segments, is rewritten as "d-m-y". */
  lemma FormatDateOfShape(value: string, y: string, m: string, d: string, rest: string)
    requires DateShaped(value, y, m, d, rest)
    ensures FormatDateForPesapal(value) == d + "-" + m + "-" + y
  {
    if rest == "" {
      assert value == y + "-" + m + "-" + d;
      FormatDateSwapsYearAndDay(y, m, d);
    } else {
      assert rest == "-" + rest[1..];
      assert value == y + "-" + m + "-" + d + "-" + rest[1..];
      FormatDateDropsExtraSegments(y, m, d, rest[1..]);
    }
  }

  /**
   * Conversely, the rewrite changes nothing but date-shaped values: every
   * other input, such as one with an empty month or day, is kept as is.
   */
  lemma {:induction false} FormatDateChangesOnlyDates(value: string)
    ensures FormatDateForPesapal(value) == value || exists y, m, d, rest :: DateShaped(value, y, m, d, rest)
  {
    if FormatDateForPesapal(value) != value {
      var parts := Split(value, '-');
      assert |parts| >= 3 && parts[0] != "" && parts[1] != "" && parts[2] != "";
      var rest := if |parts| == 3 then "" else "-" + Join(parts[3..], '-');
      assert value == parts[0] + "-" + parts[1] + "-" + parts[2] + rest by {
        JoinFirstThree(parts, '-');
        JoinedDateLayout(parts[0], parts[1], parts[2], rest);
      }
      assert DateShaped(value, parts[0], parts[1], parts[2], rest);
    }
  }

  /**
   * A join of three or more parts, with the first three peeled off, grouped
   * as `Join` itself builds it.
   */
  lemma JoinFirstThree(parts: seq<string>, sep: char)
    requires |parts| >= 3
    ensures Join(parts, sep)
              == (parts[0] + [sep]) + ((parts[1] + [sep]) + (parts[2] + (if |parts| == 3 then "" else [sep] + Join(parts[3..], sep))))
  {
    var tail := parts[2..];
    var rest := if |parts| == 3 then "" else [sep] + Join(parts[3..], sep);
    assert Join(tail, sep) == parts[2] + rest by {
      if |parts| == 3 {
        assert parts[2] + "" == parts[2];
      } else {
        assert tail[1..] == parts[3..];
        IpnLog.ConcatAssociative(parts[2], [sep], Join(parts[3..], sep));
      }
    }
    assert Join(parts[1..], sep) == (parts[1] + [sep]) + Join(tail, sep) by {
      assert parts[1..][1..] == tail;
    }
  }

  /** The segments of a date text, regrouped from the way `Join` builds them. */
  lemma JoinedDateLayout(y: string, m: string, d: string, rest: string)
    ensures y + "-" + m + "-" + d + rest == (y + ['-']) + ((m + ['-']) + (d + rest))
  {
    var a, b := y + ['-'], m + ['-'];
    IpnLog.ConcatAssociative(a, m, ['-']);
    IpnLog.ConcatAssociative(a + b, d, rest);
    IpnLog.ConcatAssociative(a, b, d + rest);
  }

  /** The segments of a date text, nested to the right as `Split` peels them. */
  lemma DateLayout(y: string, m: string, d: string, rest: string)
    ensures y + "-" + m + "-" + d + rest == y + ['-'] + (m + ['-'] + (d + rest))
  {
  }

  /** An empty month keeps the text unchanged: "2024--05" stays as it is. */
  lemma FormatDateKeepsEmptyMonth(y: string, t: string)
    requires '-' !in y
    ensures FormatDateForPesapal(y + "--" + t) == y + "--" + t
  {
    assert y + "--" + t == y + ['-'] + ("" + ['-'] + t);
    SplitCons("", '-', t);
    SplitCons(y, '-', "" + ['-'] + t);
  }

  /** An empty day keeps the text unchanged: "2024-05-" and "2024-05--x" stay as they are. */
  lemma FormatDateKeepsEmptyDay(y: string, m: string, t: string)
    requires '-' !in y && '-' !in m
    requires t == "" || t[0] == '-'
    ensures FormatDateForPesapal(y + "-" + m + "-" + t) == y + "-" + m + "-" + t
  {
    var value := y + "-" + m + "-" + t;
    assert Split(t, '-')[0] == "" by {
      if t != "" {
        assert t == "" + ['-'] + t[1..];
        SplitCons("", '-', t[1..]);
      }
    }
    assert value == y + ['-'] + (m + ['-'] + t) by {
      DateLayout(y, m, "", t);
    }
    assert Split(value, '-')[2] == "" by {
      SplitCons(m, '-', t);
      SplitCons(y, '-', m + ['-'] + t);
    }
  }

  /** Text without a `-` is passed through unchanged. */
  lemma FormatDateKeepsUndelimited(value: string)
    requires '-' !in value
    ensures FormatDateForPesapal(value) == value
  {
  }

  /** Text with a single `-` is passed through unchanged. */
  lemma FormatDateKeepsTwoSegments(a: string, b: string)
    requires '-' !in a && '-' !in b
    ensures FormatDateForPesapal(a + "-" + b) == a + "-" + b
  {
    SplitCons(a, '-', b);
    assert a + "-" + b == a + ['-'] + b;
  }

  /** Text starting with `-` has an empty year and is passed through unchanged. */
  lemma FormatDateKeepsEmptyYear(t: string)
    ensures FormatDateForPesapal("-" + t) == "-" + t
  {
    SplitCons("", '-', t);
    assert "-" + t == "" + ['-'] + t;
  }

  // ---------------------------------------------------------------- validation

  /** The subscription part of the form, as typed; the frequency is the selected option's value. */
  datatype SubscriptionFormState = SubscriptionFormState(startDate: string, endDate: string, frequency: string)

  const DatesRequiredMessage: string := "Start and end dates are required for subscriptions."
  const FrequencyRequiredMessage: string := "Choose a billing frequency for the subscription."
  const InvalidDatesMessage: string := "Enter valid dates in YYYY-MM-DD format."
  const DateOrderMessage: string := "End date must be after the start date."

  /** `new Date(text)` as a time value, or `None` for an invalid date. */
  type DateParser = string -> Option<int>

  /**
   * `validateSubscriptionForm`: both dates are required, then a frequency,
   * then both dates must parse, and the start must not be after the end.
   */
  function ValidateSubscriptionForm(form: SubscriptionFormState, parseDate: DateParser): (r: Option<string>)
    ensures r == Some(DatesRequiredMessage) <==> form.startDate == "" || form.endDate == ""
    ensures r == Some(FrequencyRequiredMessage) <==> form.startDate != "" && form.endDate != "" && form.frequency == ""
    ensures r == Some(InvalidDatesMessage) <==>
              && form.startDate != "" && form.endDate != "" && form.frequency != ""
              && (parseDate(form.startDate).None? || parseDate(form.endDate).None?)
    ensures r.None? <==>
              && form.startDate != "" && form.endDate != "" && form.frequency != ""
              && parseDate(form.startDate).Some? && parseDate(form.endDate).Some?
              && parseDate(form.startDate).value <= parseDate(form.endDate).value
    ensures r == Some(DateOrderMessage) <==>
              && form.startDate != "" && form.endDate != "" && form.frequency != ""
              && parseDate(form.startDate).Some? && parseDate(form.endDate).Some?
              && parseDate(form.startDate).value > parseDate(form.endDate).value
    ensures r.Some? ==> r.value in {DatesRequiredMessage, FrequencyRequiredMessage, InvalidDatesMessage, DateOrderMessage}
  {
    if form.startDate == "" || form.endDate == "" then Some(DatesRequiredMessage)
    else if form.frequency == "" then Some(FrequencyRequiredMessage)
    else
      match (parseDate(form.startDate), parseDate(form.endDate))
      case (Some(start), Some(end)) => if start > end then Some(DateOrderMessage) else None
      case _ => Some(InvalidDatesMessage)
  }

  /** A subscription may start and end on the same date. */
  lemma SameDayIsAccepted(date: string, frequency: string, parseDate: DateParser)
    requires date != "" && frequency != "" && parseDate(date).Some?
    ensures ValidateSubscriptionForm(SubscriptionFormState(date, date, frequency), parseDate).None?
  {
  }

  // ---------------------------------------------------------------- payload and guards

  /**
   * `buildSubmitOrderPayload`: the account number is trimmed and dropped
   * when blank; subscription details are present exactly when enabled, with
   * both dates reformatted; every other field is copied.
   */
  function BuildSubmitOrderPayload(order: SubmitOrderInput, enabled: bool, form: SubscriptionFormState): (r: SubmitOrderInput)
    ensures r.accountNumber.None? <==> order.accountNumber.None? || AllWhitespace(order.accountNumber.value)
    ensures r.accountNumber.Some? ==> r.accountNumber.value == Trim(order.accountNumber.value)
    ensures r.subscriptionDetails.Some? <==> enabled
    ensures enabled ==> r.subscriptionDetails.value == SubscriptionDetailsInput(
                          FormatDateForPesapal(form.startDate), FormatDateForPesapal(form.endDate), form.frequency)
    ensures r.(accountNumber := order.accountNumber, subscriptionDetails := order.subscriptionDetails) == order
  {
    var account :=
      if order.accountNumber.None? then None
      else TrimmedAccount(order.accountNumber.value);
    var payload := order.(accountNumber := account);
    if enabled then
      payload.(subscriptionDetails := Some(SubscriptionDetailsInput(
        FormatDateForPesapal(form.startDate), FormatDateForPesapal(form.endDate), form.frequency)))
    else
      payload.(subscriptionDetails := None)
  }

  /** A trimmed account number, or `None` when nothing but whitespace was typed. */
  function TrimmedAccount(a: string): (r: Option<string>)
    ensures r.None? <==> AllWhitespace(a)
    ensures r.Some? ==> r.value == Trim(a)
  {
    TrimEmptyIffBlank(a);
    if Trim(a) != "" then Some(Trim(a)) else None
  }

  const NoNotificationIdMessage: string := "Register an IPN first to get the notification ID."

  /** What submitting the form does before any request: reject with a message, or send a payload. */
  datatype SubmitDecision = Reject(message: string) | Submit(payload: SubmitOrderInput)

  /**
   * The guards of `handleSubmitOrder`: the notification id is checked
   * first, the subscription is validated only when enabled, and a payload
   * is built only when both pass.
   */
  function DecideSubmitOrder(order: SubmitOrderInput, enabled: bool, form: SubscriptionFormState, parseDate: DateParser): (d: SubmitDecision)
    ensures order.notificationId == "" ==> d == Reject(NoNotificationIdMessage)
    ensures d.Submit? <==> order.notificationId != "" && (!enabled || ValidateSubscriptionForm(form, parseDate).None?)
    ensures d.Submit? ==> d.payload == BuildSubmitOrderPayload(order, enabled, form)
    ensures order.notificationId != "" && enabled && ValidateSubscriptionForm(form, parseDate).Some? ==>
              d == Reject(ValidateSubscriptionForm(form, parseDate).value)
  {
    if order.notificationId == "" then Reject(NoNotificationIdMessage)
    else if enabled && ValidateSubscriptionForm(form, parseDate).Some? then
      Reject(ValidateSubscriptionForm(form, parseDate).value)
    else
      Submit(BuildSubmitOrderPayload(order, enabled, form))
  }

  /** With the subscription off, the subscription form has no effect at all. */
  lemma DisabledSubscriptionIsIgnored(order: SubmitOrderInput, f1: SubscriptionFormState, p1: DateParser,
                                      f2: SubscriptionFormState, p2: DateParser)
    ensures DecideSubmitOrder(order, false, f1, p1) == DecideSubmitOrder(order, false, f2, p2)
  {
  }

  /**
   * From the form to the wire: a submitted order without a subscription
   * sends no `subscription_details`; with one, it sends the reformatted
   * dates.
   */
  lemma SubmittedSubscriptionOnTheWire(order: SubmitOrderInput, enabled: bool, form: SubscriptionFormState, parseDate: DateParser)
    requires DecideSubmitOrder(order, enabled, form, parseDate).Submit?
    ensures var details := Prop(SubmitOrderBody(DecideSubmitOrder(order, enabled, form, parseDate).payload), "subscription_details");
            && (details.Some? <==> enabled)
            && (enabled ==>
                  DecodeSubscriptionDetails(details.value) == Some(SubscriptionDetailsInput(
                    FormatDateForPesapal(form.startDate), FormatDateForPesapal(form.endDate), form.frequency)))
  {
    var p := DecideSubmitOrder(order, enabled, form, parseDate).payload;
    assert p == BuildSubmitOrderPayload(order, enabled, form);
    OrderOptionalFields(p);
    if enabled {
      SubscriptionDetailsRoundTrip(p.subscriptionDetails.value);
    }
  }

  // ---------------------------------------------------------------- callback log display

  /** `[...items].reverse()`. */
  function Reverse<T>(s: seq<T>): (r: seq<T>)
    ensures |r| == |s|
    ensures forall i :: 0 <= i < |s| ==> r[i] == s[|s| - 1 - i]
    decreases |s|
  {
    if |s| == 0 then [] else Reverse(s[1..]) + [s[0]]
  }

  lemma ReverseIsInvolution<T>(s: seq<T>)
    ensures Reverse(Reverse(s)) == s
  {
  }

  /**
   * `refreshIpnLogs`: when the response is an array, the log is shown
   * newest first; otherwise what was shown stays.
   */
  function LogsToDisplay(payload: Option<Json>, shown: seq<Json>): (r: seq<Json>)
    ensures payload.Some? && payload.value.JArr? ==> |r| == |payload.value.items|
                                                     && Reverse(r) == payload.value.items
    ensures !(payload.Some? && payload.value.JArr?) ==> r == shown
  {
    match payload
    case Some(JArr(items)) =>
      ReverseIsInvolution(items);
      Reverse(items)
    case _ => shown
  }

  /** After a callback is logged, a refresh shows it first. */
  lemma NewestEntryShownFirst(c: Codec, f: IpnLog.LogFile, raw: string, receivedAt: string, shown: seq<Json>)
    requires Lawful(c)
    ensures var a := IpnLog.AppendIpnLog(c, f, raw, receivedAt);
            var display := LogsToDisplay(Some(JArr(IpnLog.ReadIpnLog(c, a.file).entries)), shown);
            |display| > 0 && display[0] == IpnLog.EntryToJson(IpnLog.StoredEntry(a.entry))
  {
    IpnLog.AppendThenRead(c, f, raw, receivedAt);
  }
}

=== FILE: pesapal.dfy ===
/**
 * The Pesapal API client: configuration, error extraction, response
 * handling, the token gate and the camelCase-to-snake_case wire mapping.
 *
 * The provider is an oracle from the requests sent so far and the next
 * request to a response; every operation returns its result together with
 * the trace of requests sent, so "no request is sent" can be stated.
 */
module Pesapal {
  import opened Wrappers
  import opened Json
  import opened JsText

  // ---------------------------------------------------------------- configuration

  const SandboxBase: string := "https://cybqa.pesapal.com/pesapalv3/api"
  const LiveBase: string := "https://pay.pesapal.com/v3/api"

  datatype Environment = Sandbox | Live

  function EnvironmentName(e: Environment): string {
    match e
    case Sandbox => "sandbox"
    case Live => "live"
  }

  function ApiBase(e: Environment): string {
    match e
    case Sandbox => SandboxBase
    case Live => LiveBase
  }

  /** The process environment the client reads; `None` is an unset variable. */
  datatype Config = Config(environment: Option<string>, consumerKey: Option<string>, consumerSecret: Option<string>)

  /**
   * A required setting: an unset or empty value is an error naming the
   * variable, anything else is returned trimmed.
   */
  function EnsureEnv(value: Option<string>, name: string): (r: Result<string, string>)
    ensures r.Failure? <==> value.None? || value.value == ""
    ensures r.Failure? ==> r.error == name + " is not defined. Update your .env.local file."
    ensures r.Success? ==> exists a :: InfixWithin(r.value, value.value, a)
    ensures r.Success? && r.value != [] ==> !IsWhitespace(r.value[0]) && !IsWhitespace(r.value[|r.value| - 1])
  {
    if value.None? || value.value == "" then
      Failure(name + " is not defined. Update your .env.local file.")
    else
      Success(Trim(value.value))
  }

  /**
   * The environment toggle: unset means sandbox, "sandbox" and "live" are
   * accepted in any ASCII case, anything else is rejected.
   */
  function GetEnvironment(setting: Option<string>): (r: Result<Environment, string>)
    ensures setting.None? ==> r == Success(Sandbox)
    ensures r.Success? ==> EnvironmentName(r.value) == AsciiLower(setting.GetOr("sandbox"))
    ensures r.Failure? <==> AsciiLower(setting.GetOr("sandbox")) !in {"sandbox", "live"}
    ensures r.Failure? ==> r.error == "Unsupported PESAPAL_ENVIRONMENT: " + AsciiLower(setting.GetOr("sandbox"))
  {
    var env := AsciiLower(setting.GetOr("sandbox"));
    if env == "sandbox" then Success(Sandbox)
    else if env == "live" then Success(Live)
    else Failure("Unsupported PESAPAL_ENVIRONMENT: " + env)
  }

  /** The toggle ignores ASCII case. */
  lemma GetEnvironmentIgnoresCase(s: string)
    ensures GetEnvironment(Some(s)).Success? ==> GetEnvironment(Some(AsciiLower(s))) == GetEnvironment(Some(s))
  {
    AsciiLowerIdempotent(s);
  }

  /** Each environment is selected by its own name. */
  lemma GetEnvironmentOfName(e: Environment)
    ensures GetEnvironment(Some(EnvironmentName(e))) == Success(e)
  {
  }

  /** The base URL: exactly one of the two API roots, sandbox by default. */
  function BaseUrl(setting: Option<string>): (r: Result<string, string>)
    ensures setting.None? ==> r == Success(SandboxBase)
    ensures r.Success? <==> GetEnvironment(setting).Success?
    ensures r.Success? ==> (r.value == SandboxBase) != (r.value == LiveBase)
    ensures r.Success? ==> (r.value == LiveBase <==> AsciiLower(setting.GetOr("sandbox")) == "live")
    ensures r.Failure? ==> r.error == GetEnvironment(setting).error
  {
    var e :- GetEnvironment(setting);
    Success(ApiBase(e))
  }

  // ---------------------------------------------------------------- errors and responses

  /**
   * The provider's error message, by priority: a string `error`; else, for
   * a truthy object `error`, its truthy `message`, else its truthy `code`,
   * else nothing; else a string top-level `message`; else nothing.
   */
  function ExtractError(payload: Json): (r: Option<Json>)
    // Only a plain object can carry an error.
    ensures !payload.JObj? ==> r.None?
    // A string `error` wins, even over a top-level `message`.
    ensures Prop(payload, "error").Some? && Prop(payload, "error").value.JStr? ==> r == Prop(payload, "error")
    // An object `error` decides alone: it never falls through to `message`.
    ensures TruthyOpt(Prop(payload, "error")) && IsObjectType(Prop(payload, "error").value) ==>
              var nested := Prop(payload, "error").value;
              r == (if TruthyOpt(Prop(nested, "message")) then Prop(nested, "message")
                    else if TruthyOpt(Prop(nested, "code")) then Prop(nested, "code")
                    else None)
    // The top-level `message` is used exactly when `error` is neither a string nor a truthy object.
    ensures (Prop(payload, "error").None? || (!Prop(payload, "error").value.JStr? &&
              !(Truthy(Prop(payload, "error").value) && IsObjectType(Prop(payload, "error").value)))) ==>
              r == (if GetString(payload, "message").Some? then Prop(payload, "message") else None)
    // Whatever is returned is a string or a truthy value.
    ensures r.Some? ==> r.value.JStr? || Truthy(r.value)
  {
    if !Truthy(payload) || !IsObjectType(payload) then None
    else
      var errorField := Prop(payload, "error");
      if errorField.Some? && errorField.value.JStr? then errorField
      else if TruthyOpt(errorField) && IsObjectType(errorField.value) then
        var nested := errorField.value;
        if TruthyOpt(Prop(nested, "message")) then Prop(nested, "message")
        else if TruthyOpt(Prop(nested, "code")) then Prop(nested, "code")
        else None
      else if GetString(payload, "message").Some? then Prop(payload, "message")
      else None
  }

  /** Whatever `extractError` returns comes from one of the four places it looks. */
  lemma ExtractErrorProvenance(payload: Json)
    ensures var r := ExtractError(payload);
            r.Some? ==>
              || r == Prop(payload, "error")
              || (Prop(payload, "error").Some? && r == Prop(Prop(payload, "error").value, "message"))
              || (Prop(payload, "error").Some? && r == Prop(Prop(payload, "error").value, "code"))
              || r == Prop(payload, "message")
  {
  }

  datatype Method = Get | Post

  /** An outbound request; the body is the value before `JSON.stringify`. */
  datatype Request = Request(verb: Method, url: string, headers: map<string, string>, body: Option<Json>)

  datatype Response = Response(ok: bool, status: nat, text: string, statusText: string)

  const FailurePrefix: string := "Pesapal request failed ("

  /** The text of the error thrown for a non-success response. */
  function FailureMessage(status: nat, detail: string): string {
    FailurePrefix + NatToDecimal(status) + "): " + detail
  }

  /** Recovers the status code and detail from a failure message. */
  function ParseFailureMessage(msg: string): Option<(nat, string)> {
    if |msg| < |FailurePrefix| || msg[..|FailurePrefix|] != FailurePrefix then None
    else
      var rest := msg[|FailurePrefix|..];
      if ')' !in rest then None
      else
        var k := IndexOf(rest, ')');
        var digits := rest[..k];
        if digits == [] || !AllDigits(digits) || !(|rest| >= k + 3 && rest[k..k + 3] == "): ") then None
        else Some((DecimalValue(digits), rest[k + 3..]))
  }

  /** A failure message determines its status code and detail. */
  lemma FailureMessageRoundTrip(status: nat, detail: string)
    ensures ParseFailureMessage(FailureMessage(status, detail)) == Some((status, detail))
  {
    var digits := NatToDecimal(status);
    var msg := FailureMessage(status, detail);
    assert msg[..|FailurePrefix|] == FailurePrefix;
    var rest := msg[|FailurePrefix|..];
    assert rest == digits + [')'] + (": " + detail);
    assert ')' !in digits;
    IndexOfAfter(digits, ')', ": " + detail);
    assert rest[..|digits|] == digits;
    assert rest[|digits|..|digits| + 3] == "): ";
    assert rest[|digits| + 3..] == detail;
    DecimalRoundTrip(status);
  }

  /** The detail of a failure: the extracted error, else the body text, else the status text. */
  function ErrorDetail(payload: Json, text: string, statusText: string): (r: string)
    ensures ExtractError(payload).Some? ==> r == JsString(ExtractError(payload).value)
    ensures ExtractError(payload).None? && text != "" ==> r == text
    ensures ExtractError(payload).None? && text == "" ==> r == statusText
    ensures !payload.JObj? ==> r == (if text != "" then text else statusText)
  {
    match ExtractError(payload)
    case Some(m) => JsString(m)
    case None => if text != "" then text else statusText
  }

  /**
   * `requestJson` once the response has arrived: a success yields the parsed
   * body (`null` when it is not JSON); a failure throws a message carrying
   * the status and the error detail.
   */
  function InterpretResponse(c: Codec, resp: Response): (r: Result<Json, string>)
    ensures r.Success? <==> resp.ok
    ensures r.Success? && c.parse(resp.text).Some? ==> r.value == c.parse(resp.text).value
    ensures r.Success? && c.parse(resp.text).None? ==> r.value == JNull
    ensures r.Failure? ==>
              r.error == FailureMessage(resp.status, ErrorDetail(TryParseJson(c, resp.text), resp.text, resp.statusText))
    ensures r.Failure? ==>
              ParseFailureMessage(r.error) == Some((resp.status, ErrorDetail(TryParseJson(c, resp.text), resp.text, resp.statusText)))
  {
    var payload := TryParseJson(c, resp.text);
    if !resp.ok then
      var detail := ErrorDetail(payload, resp.text, resp.statusText);
      FailureMessageRoundTrip(resp.status, detail);
      Failure(FailureMessage(resp.status, detail))
    else
      Success(payload)
  }

  /** A failing response with a nested error object surfaces its message. */
  lemma NestedErrorMessageSurfaces(c: Codec, resp: Response)
    requires !resp.ok
    requires c.parse(resp.text) == Some(JObj(map["error" := JObj(map["message" := JStr("Invalid token"), "code" := JStr("E01")])]))
    ensures InterpretResponse(c, resp) == Failure(FailureMessage(resp.status, "Invalid token"))
  {
  }

  // ---------------------------------------------------------------- headers and the token gate

  /** JSON content headers, plus a bearer `Authorization` exactly when the token is truthy. */
  function DefaultHeaders(token: Option<Json>): (r: map<string, string>)
    ensures "Accept" in r && r["Accept"] == "application/json"
    ensures "Content-Type" in r && r["Content-Type"] == "application/json"
    ensures "Authorization" in r <==> TruthyOpt(token)
    ensures "Authorization" in r ==> r["Authorization"] == "Bearer " + JsString(token.value)
    ensures r.Keys <= {"Accept", "Content-Type", "Authorization"}
  {
    var headers := map["Accept" := "application/json", "Content-Type" := "application/json"];
    if TruthyOpt(token) then headers["Authorization" := "Bearer " + JsString(token.value)] else headers
  }

  /** The provider as an oracle: the response to a request, given all requests sent before it. */
  type Network = (seq<Request>, Request) -> Response

  datatype Client = Client(config: Config, codec: Codec, network: Network)

  /** An operation's outcome and every request sent so far, oldest first. */
  datatype Run<T> = Run(result: Result<T, string>, trace: seq<Request>)

  /** `requestJson`: sends one request and interprets the response. */
  function Send(cl: Client, history: seq<Request>, req: Request): (r: Run<Json>)
    ensures r.trace == history + [req]
  {
    Run(InterpretResponse(cl.codec, cl.network(history, req)), history + [req])
  }

  function TokenRequest(base: string, key: string, secret: string): (req: Request)
    ensures "Authorization" !in req.headers
  {
    Request(Post, base + "/Auth/RequestToken", DefaultHeaders(None),
            Some(JObj(map["consumer_key" := JStr(key), "consumer_secret" := JStr(secret)])))
  }

  /**
   * `requestAccessToken`: the key, then the secret, then the environment
   * are checked, and only then is the token request sent.
   */
  function RequestAccessToken(cl: Client, history: seq<Request>): (r: Run<Json>)
    ensures r.trace == history || |r.trace| == |history| + 1
    ensures r.trace == history <==>
              EnsureEnv(cl.config.consumerKey, "PESAPAL_CONSUMER_KEY").Failure?
              || EnsureEnv(cl.config.consumerSecret, "PESAPAL_CONSUMER_SECRET").Failure?
              || BaseUrl(cl.config.environment).Failure?
    ensures r.trace == history ==> r.result.Failure?
    ensures EnsureEnv(cl.config.consumerKey, "PESAPAL_CONSUMER_KEY").Failure? ==>
              r.result == Failure(EnsureEnv(cl.config.consumerKey, "PESAPAL_CONSUMER_KEY").error)
    ensures EnsureEnv(cl.config.consumerKey, "PESAPAL_CONSUMER_KEY").Success?
            && EnsureEnv(cl.config.consumerSecret, "PESAPAL_CONSUMER_SECRET").Failure? ==>
              r.result == Failure(EnsureEnv(cl.config.consumerSecret, "PESAPAL_CONSUMER_SECRET").error)
    ensures EnsureEnv(cl.config.consumerKey, "PESAPAL_CONSUMER_KEY").Success?
            && EnsureEnv(cl.config.consumerSecret, "PESAPAL_CONSUMER_SECRET").Success?
            && BaseUrl(cl.config.environment).Failure? ==>
              r.result == Failure(BaseUrl(cl.config.environment).error)
    ensures |r.trace| == |history| + 1 ==> r.trace[..|history|] == history
    ensures |r.trace| == |history| + 1 ==> "Authorization" !in r.trace[|history|].headers
    ensures |r.trace| == |history| + 1 ==> AnswersLast(cl, r)
  {
    match EnsureEnv(cl.config.consumerKey, "PESAPAL_CONSUMER_KEY")
    case Failure(e) => Run(Failure(e), history)
    case Success(key) =>
      match EnsureEnv(cl.config.consumerSecret, "PESAPAL_CONSUMER_SECRET")
      case Failure(e) => Run(Failure(e), history)
      case Success(secret) =>
        match BaseUrl(cl.config.environment)
        case Failure(e) => Run(Failure(e), history)
        case Success(base) => Send(cl, history, TokenRequest(base, key, secret))
  }

  /**
   * The token request carries the trimmed credentials to the environment's
   * token endpoint, without an `Authorization` header.
   */
  lemma TokenRequestShape(cl: Client, history: seq<Request>)
    ensures var r := RequestAccessToken(cl, history);
            |r.trace| == |history| + 1 ==>
              var req := r.trace[|history|];
              && req.verb == Post
              && req.url == BaseUrl(cl.config.environment).value + "/Auth/RequestToken"
              && req.body == Some(JObj(map["consumer_key" := JStr(Trim(cl.config.consumerKey.value)),
                                           "consumer_secret" := JStr(Trim(cl.config.consumerSecret.value))]))
  {
  }

  const NoTokenError: string := "Pesapal did not return an access token"

  /** The provider call a `withToken` callback makes once it holds a token. */
  datatype Call =
    | RegisterIpnCall(url: string, notificationType: Option<string>)
    | ListIpnsCall
    | SubmitOrderCall(body: Json)
    | TransactionStatusCall(orderTrackingId: string)
    | CancelOrderCall(orderTrackingId: string)

  /** The request a call sends, authorized with the token. */
  function CallRequest(call: Call, base: string, token: Json): (req: Request)
    ensures Truthy(token) ==> "Authorization" in req.headers && req.headers["Authorization"] == "Bearer " + JsString(token)
  {
    var headers := DefaultHeaders(Some(token));
    match call
    case RegisterIpnCall(url, kind) =>
      Request(Post, base + "/URLSetup/RegisterIPN", headers,
              Some(JObj(map["url" := JStr(url), "ipn_notification_type" := JStr(kind.GetOr("POST"))])))
    case ListIpnsCall =>
      Request(Get, base + "/URLSetup/GetIpnList", headers, None)
    case SubmitOrderCall(body) =>
      Request(Post, base + "/Transactions/SubmitOrderRequest", headers, Some(body))
    case TransactionStatusCall(id) =>
      Request(Get, base + "/Transactions/GetTransactionStatus?orderTrackingId=" + id, headers, None)
    case CancelOrderCall(id) =>
      Request(Post, base + "/Transactions/CancelOrder", headers, Some(JObj(map["order_tracking_id" := JStr(id)])))
  }

  /** The `token` field of a successful token response, when truthy: `tokenPayload?.token`. */
  function TokenOf(tok: Run<Json>): (t: Option<Json>)
    ensures t.Some? ==> Truthy(t.value)
    ensures t.Some? ==> tok.result.Success?
    ensures tok.result.Success? && TruthyOpt(Prop(tok.result.value, "token")) ==> t == Prop(tok.result.value, "token")
  {
    if tok.result.Success? && TruthyOpt(Prop(tok.result.value, "token")) then Prop(tok.result.value, "token") else None
  }

  /**
   * The rest of `withToken` once the token request `tok` has completed: the
   * call is made only when a token came back.
   */
  function ContinueWithToken(cl: Client, tok: Run<Json>, call: Call): (r: Run<Json>)
    ensures |tok.trace| <= |r.trace| <= |tok.trace| + 1 && r.trace[..|tok.trace|] == tok.trace
    ensures |r.trace| == |tok.trace| + 1 <==> TokenOf(tok).Some? && BaseUrl(cl.config.environment).Success?
    ensures TokenOf(tok).None? ==> r.result.Failure?
    ensures tok.result.Success? && TokenOf(tok).None? ==> r.result == Failure(NoTokenError)
    ensures tok.result.Failure? ==> r.result == tok.result
    ensures |r.trace| == |tok.trace| + 1 ==>
              r.trace[|tok.trace|] == CallRequest(call, BaseUrl(cl.config.environment).value, TokenOf(tok).value)
    ensures |r.trace| == |tok.trace| + 1 ==> AnswersLast(cl, r) && BearsToken(LastRequest(r), TokenOf(tok).value)
  {
    match tok.result
    case Failure(e) => Run(Failure(e), tok.trace)
    case Success(payload) =>
      var token := Prop(payload, "token");
      if !TruthyOpt(token) then Run(Failure(NoTokenError), tok.trace)
      else
        match BaseUrl(cl.config.environment)
        case Failure(e) => Run(Failure(e), tok.trace)
        case Success(base) =>
          var r := Send(cl, tok.trace, CallRequest(call, base, token.value));
          assert r.trace[..|tok.trace|] == tok.trace;
          r
  }

  /**
   * `withToken`: requests a token, and makes the call only when one came
   * back. The token request carries no credential; the call carries the
   * token as a bearer credential.
   */
  method WithToken(cl: Client, history: seq<Request>, call: Call) returns (r: Run<Json>)
    ensures |history| <= |r.trace| <= |history| + 2 && r.trace[..|history|] == history
    ensures |r.trace| == |history| + 2 <==> TokenOf(RequestAccessToken(cl, history)).Some?
    ensures TokenOf(RequestAccessToken(cl, history)).None? ==> r.result.Failure?
    ensures RequestAccessToken(cl, history).result.Success? && TokenOf(RequestAccessToken(cl, history)).None? ==>
              r.result == Failure(NoTokenError)
    ensures |r.trace| > |history| ==> "Authorization" !in r.trace[|history|].headers
    ensures |r.trace| == |history| + 2 ==>
              BaseUrl(cl.config.environment).Success?
              && LastRequest(r) == CallRequest(call, BaseUrl(cl.config.environment).value,
                                               TokenOf(RequestAccessToken(cl, history)).value)
    ensures |r.trace| == |history| + 2 ==>
              AnswersLast(cl, r) && BearsToken(LastRequest(r), TokenOf(RequestAccessToken(cl, history)).value)
    ensures FollowsTokenStep(cl, history, r)
  {
    var tok := RequestAccessToken(cl, history);
    r := ContinueWithToken(cl, tok, call);
    assert r.trace[..|history|] == tok.trace[..|history|];
    if |r.trace| > |history| {
      assert r.trace[|history|] == tok.trace[|history|];
    }
  }

  /** The last request of a run. */
  function LastRequest(r: Run<Json>): Request
    requires |r.trace| > 0
  {
    r.trace[|r.trace| - 1]
  }

  /** The run's result is what its last request's response was interpreted as. */
  predicate AnswersLast(cl: Client, r: Run<Json>)
    requires |r.trace| > 0
  {
    r.result == InterpretResponse(cl.codec, cl.network(r.trace[..|r.trace| - 1], LastRequest(r)))
  }

  /** The request carries `Authorization: Bearer <token>`. */
  predicate BearsToken(req: Request, token: Json) {
    "Authorization" in req.headers && req.headers["Authorization"] == "Bearer " + JsString(token)
  }

  /**
   * `r` starts as the token step `requestAccessToken` takes from `history`:
   * the first request sent is that step's own, a run that stops short of
   * the call has sent only what that step sent, and a failed token step's
   * error is passed on unchanged.
   */
  predicate FollowsTokenStep(cl: Client, history: seq<Request>, r: Run<Json>) {
    var tok := RequestAccessToken(cl, history);
    && (|r.trace| > |history| ==> r.trace[..|history| + 1] == tok.trace)
    && (|r.trace| < |history| + 2 ==> r.trace == tok.trace)
    && (tok.result.Failure? ==> r.result == tok.result)
  }

  const MissingIpnUrlError: string := "An IPN URL is required"

  /**
   * `registerIpn`: an empty URL is rejected before anything is sent; the
   * notification type defaults to "POST".
   */
  method RegisterIpn(cl: Client, history: seq<Request>, url: string, kind: Option<string>) returns (r: Run<Json>)
    ensures url == "" ==> r == Run(Failure(MissingIpnUrlError), history)
    ensures url != "" ==> FollowsTokenStep(cl, history, r)
    ensures url != "" ==> (|r.trace| == |history| + 2 <==> TokenOf(RequestAccessToken(cl, history)).Some?)
    ensures |r.trace| < |history| + 2 ==> r.result.Failure?
    ensures |r.trace| == |history| + 2 ==>
              && LastRequest(r).verb == Post
              && LastRequest(r).url == BaseUrl(cl.config.environment).value + "/URLSetup/RegisterIPN"
              && LastRequest(r).body == Some(JObj(map["url" := JStr(url), "ipn_notification_type" := JStr(kind.GetOr("POST"))]))
    ensures |history| <= |r.trace| && r.trace[..|history|] == history
    ensures |r.trace| == |history| + 2 ==>
              AnswersLast(cl, r) && BearsToken(LastRequest(r), TokenOf(RequestAccessToken(cl, history)).value)
  {
    if url == "" {
      r := Run(Failure(MissingIpnUrlError), history);
    } else {
      r := WithToken(cl, history, RegisterIpnCall(url, kind));
    }
  }

  /** `listIpns`: a token-gated GET. */
  method ListIpns(cl: Client, history: seq<Request>) returns (r: Run<Json>)
    ensures FollowsTokenStep(cl, history, r)
    ensures |r.trace| == |history| + 2 <==> TokenOf(RequestAccessToken(cl, history)).Some?
    ensures |r.trace| < |history| + 2 ==> r.result.Failure?
    ensures |r.trace| == |history| + 2 ==>
              && LastRequest(r).verb == Get && LastRequest(r).body.None?
              && LastRequest(r).url == BaseUrl(cl.config.environment).value + "/URLSetup/GetIpnList"
    ensures |history| <= |r.trace| && r.trace[..|history|] == history
    ensures |r.trace| == |history| + 2 ==>
              AnswersLast(cl, r) && BearsToken(LastRequest(r), TokenOf(RequestAccessToken(cl, history)).value)
  {
    r := WithToken(cl, history, ListIpnsCall);
  }

  const MissingTrackingIdError: string := "OrderTrackingId is required"
  const MissingCancelIdError: string := "order_tracking_id is required"

  /** `getTransactionStatus`: an empty tracking id is rejected before anything is sent. */
  method GetTransactionStatus(cl: Client, history: seq<Request>, orderTrackingId: string) returns (r: Run<Json>)
    ensures orderTrackingId == "" ==> r == Run(Failure(MissingTrackingIdError), history)
    ensures orderTrackingId != "" ==> FollowsTokenStep(cl, history, r)
    ensures orderTrackingId != "" ==> (|r.trace| == |history| + 2 <==> TokenOf(RequestAccessToken(cl, history)).Some?)
    ensures |r.trace| < |history| + 2 ==> r.result.Failure?
    ensures |r.trace| == |history| + 2 ==>
              && LastRequest(r).verb == Get && LastRequest(r).body.None?
              && LastRequest(r).url == BaseUrl(cl.config.environment).value
                                       + "/Transactions/GetTransactionStatus?orderTrackingId=" + orderTrackingId
    ensures |history| <= |r.trace| && r.trace[..|history|] == history
    ensures |r.trace| == |history| + 2 ==>
              AnswersLast(cl, r) && BearsToken(LastRequest(r), TokenOf(RequestAccessToken(cl, history)).value)
  {
    if orderTrackingId == "" {
      r := Run(Failure(MissingTrackingIdError), history);
    } else {
      r := WithToken(cl, history, TransactionStatusCall(orderTrackingId));
      if |r.trace| == |history| + 2 {
        TransactionStatusRequestShape(orderTrackingId, BaseUrl(cl.config.environment).value,
                                      TokenOf(RequestAccessToken(cl, history)).value);
      }
    }
  }

  /** `cancelOrder`: an empty tracking id is rejected before anything is sent. */
  method CancelOrder(cl: Client, history: seq<Request>, orderTrackingId: string) returns (r: Run<Json>)
    ensures orderTrackingId == "" ==> r == Run(Failure(MissingCancelIdError), history)
    ensures orderTrackingId != "" ==> FollowsTokenStep(cl, history, r)
    ensures orderTrackingId != "" ==> (|r.trace| == |history| + 2 <==> TokenOf(RequestAccessToken(cl, history)).Some?)
    ensures |r.trace| < |history| + 2 ==> r.result.Failure?
    ensures |r.trace| == |history| + 2 ==>
              && LastRequest(r).verb == Post
              && LastRequest(r).url == BaseUrl(cl.config.environment).value + "/Transactions/CancelOrder"
              && LastRequest(r).body == Some(JObj(map["order_tracking_id" := JStr(orderTrackingId)]))
    ensures |history| <= |r.trace| && r.trace[..|history|] == history
    ensures |r.trace| == |history| + 2 ==>
              AnswersLast(cl, r) && BearsToken(LastRequest(r), TokenOf(RequestAccessToken(cl, history)).value)
  {
    if orderTrackingId == "" {
      r := Run(Failure(MissingCancelIdError), history);
    } else {
      r := WithToken(cl, history, CancelOrderCall(orderTrackingId));
      if |r.trace| == |history| + 2 {
        CancelOrderRequestShape(orderTrackingId, BaseUrl(cl.config.environment).value,
                                TokenOf(RequestAccessToken(cl, history)).value);
      }
    }
  }

  lemma TransactionStatusRequestShape(id: string, base: string, token: Json)
    ensures var req := CallRequest(TransactionStatusCall(id), base, token);
            req.verb == Get && req.body.None? && req.url == base + "/Transactions/GetTransactionStatus?orderTrackingId=" + id
  {
  }

  lemma CancelOrderRequestShape(id: string, base: string, token: Json)
    ensures var req := CallRequest(CancelOrderCall(id), base, token);
            req.verb == Post && req.url == base + "/Transactions/CancelOrder"
            && req.body == Some(JObj(map["order_tracking_id" := JStr(id)]))
  {
  }

  // ---------------------------------------------------------------- order wire mapping

  /** The buyer's address as the caller gives it; `None` is an absent optional field. */
  datatype BillingAddressInput = BillingAddressInput(
    emailAddress: string,
    phoneNumber: string,
    countryCode: string,
    firstName: string,
    middleName: Option<string>,
    lastName: string,
    line1: Option<string>,
    line2: Option<string>,
    city: Option<string>,
    state: Option<string>,
    postalCode: Option<string>,
    zipCode: Option<string>)

  /** Subscription dates and frequency ("DAILY", "WEEKLY", "MONTHLY" or "YEARLY"), copied as given. */
  datatype SubscriptionDetailsInput = SubscriptionDetailsInput(startDate: string, endDate: string, frequency: string)

  datatype SubmitOrderInput = SubmitOrderInput(
    merchantReference: string,
    currency: string,
    amount: Number,
    description: string,
    callbackUrl: string,
    notificationId: string,
    branch: Option<string>,
    billingAddress: BillingAddressInput,
    accountNumber: Option<string>,
    subscriptionDetails: Option<SubscriptionDetailsInput>)

  /** `mapBillingAddress`: snake_case keys, every absent optional field sent as "". */
  function MapBillingAddress(b: BillingAddressInput): (r: Json)
    ensures r.JObj?
  {
    JObj(map[
      "email_address" := JStr(b.emailAddress),
      "phone_number" := JStr(b.phoneNumber),
      "country_code" := JStr(b.countryCode),
      "first_name" := JStr(b.firstName),
      "middle_name" := JStr(b.middleName.GetOr("")),
      "last_name" := JStr(b.lastName),
      "line_1" := JStr(b.line1.GetOr("")),
      "line_2" := JStr(b.line2.GetOr("")),
      "city" := JStr(b.city.GetOr("")),
      "state" := JStr(b.state.GetOr("")),
      "postal_code" := JStr(b.postalCode.GetOr("")),
      "zip_code" := JStr(b.zipCode.GetOr(""))
    ])
  }

  /** `mapSubscriptionDetails`: the dates are copied unchanged. */
  function MapSubscriptionDetails(d: SubscriptionDetailsInput): (r: Json)
    ensures r.JObj? && r.fields.Keys == {"start_date", "end_date", "frequency"}
    ensures forall k :: k in r.fields ==> r.fields[k].JStr?
  {
    JObj(map["start_date" := JStr(d.startDate), "end_date" := JStr(d.endDate), "frequency" := JStr(d.frequency)])
  }

  /** Whether `accountNumber` is truthy, which decides if it is sent. */
  predicate HasAccountNumber(o: SubmitOrderInput) {
    o.accountNumber.Some? && o.accountNumber.value != ""
  }

  /**
   * The body `submitOrderRequest` sends: `account_number` only when the
   * account number is non-empty, `subscription_details` only when
   * subscription details are given.
   */
  function SubmitOrderBody(o: SubmitOrderInput): (r: Json)
    ensures r.JObj?
    ensures "account_number" in r.fields <==> HasAccountNumber(o)
    ensures "subscription_details" in r.fields <==> o.subscriptionDetails.Some?
  {
    var body := map[
      "id" := JStr(o.merchantReference),
      "currency" := JStr(o.currency),
      "amount" := JNum(o.amount),
      "description" := JStr(o.description),
      "callback_url" := JStr(o.callbackUrl),
      "notification_id" := JStr(o.notificationId),
      "branch" := JStr(o.branch.GetOr("")),
      "billing_address" := MapBillingAddress(o.billingAddress)
    ];
    var withAccount := if HasAccountNumber(o) then body["account_number" := JStr(o.accountNumber.value)] else body;
    var full := if o.subscriptionDetails.Some? then
                  withAccount["subscription_details" := MapSubscriptionDetails(o.subscriptionDetails.value)]
                else withAccount;
    JObj(full)
  }

  /**
   * What the wire body keeps of an order: absent optional strings become "",
   * an empty account number is dropped.
   */
  function NormalizeBilling(b: BillingAddressInput): BillingAddressInput {
    b.(middleName := Some(b.middleName.GetOr("")),
       line1 := Some(b.line1.GetOr("")),
       line2 := Some(b.line2.GetOr("")),
       city := Some(b.city.GetOr("")),
       state := Some(b.state.GetOr("")),
       postalCode := Some(b.postalCode.GetOr("")),
       zipCode := Some(b.zipCode.GetOr("")))
  }

  function NormalizeOrder(o: SubmitOrderInput): SubmitOrderInput {
    o.(branch := Some(o.branch.GetOr("")),
       billingAddress := NormalizeBilling(o.billingAddress),
       accountNumber := if HasAccountNumber(o) then o.accountNumber else None)
  }

  function DecodeBillingAddress(j: Json): Option<BillingAddressInput> {
    var email :- GetString(j, "email_address");
    var phone :- GetString(j, "phone_number");
    var country :- GetString(j, "country_code");
    var first :- GetString(j, "first_name");
    var middle :- GetString(j, "middle_name");
    var last :- GetString(j, "last_name");
    var line1 :- GetString(j, "line_1");
    var line2 :- GetString(j, "line_2");
    var city :- GetString(j, "city");
    var state :- GetString(j, "state");
    var postal :- GetString(j, "postal_code");
    var zip :- GetString(j, "zip_code");
    Some(BillingAddressInput(email, phone, country, first, Some(middle), last, Some(line1), Some(line2),
                             Some(city), Some(state), Some(postal), Some(zip)))
  }

  function DecodeSubscriptionDetails(j: Json): Option<SubscriptionDetailsInput> {
    var start :- GetString(j, "start_date");
    var end :- GetString(j, "end_date");
    var frequency :- GetString(j, "frequency");
    Some(SubscriptionDetailsInput(start, end, frequency))
  }

  /** Reads a submit-order wire body back into an order. */
  function DecodeOrderBody(j: Json): Option<SubmitOrderInput> {
    var id :- GetString(j, "id");
    var currency :- GetString(j, "currency");
    var amount :- match Prop(j, "amount") case Some(JNum(n)) => Some(n) case _ => None;
    var description :- GetString(j, "description");
    var callbackUrl :- GetString(j, "callback_url");
    var notificationId :- GetString(j, "notification_id");
    var branch :- GetString(j, "branch");
    var billingJson :- Prop(j, "billing_address");
    var billing :- DecodeBillingAddress(billingJson);
    var account := GetString(j, "account_number");
    var subscription :- match Prop(j, "subscription_details")
                        case None => Some(None)
                        case Some(d) => match DecodeSubscriptionDetails(d) case Some(s) => Some(Some(s)) case None => None;
    Some(SubmitOrderInput(id, currency, amount, description, callbackUrl, notificationId, Some(branch),
                          billing, account, subscription))
  }

  /** The keys of a mapped billing address. */
  const BillingKeys: set<string> :=
    {"email_address", "phone_number", "country_code", "first_name", "middle_name", "last_name",
     "line_1", "line_2", "city", "state", "postal_code", "zip_code"}

  /** The keys every submit-order body carries. */
  const OrderRequiredKeys: set<string> :=
    {"id", "currency", "amount", "description", "callback_url", "notification_id", "branch", "billing_address"}

  /** A mapped billing address has exactly the twelve billing keys, and no other. */
  lemma BillingKeySet(b: BillingAddressInput)
    ensures MapBillingAddress(b).fields.Keys == BillingKeys
  {
  }

  /**
   * A submit-order body has exactly the eight required keys, plus
   * `account_number` and `subscription_details` when those are sent.
   */
  lemma OrderBodyKeySet(o: SubmitOrderInput)
    ensures SubmitOrderBody(o).fields.Keys ==
              OrderRequiredKeys
              + (if HasAccountNumber(o) then {"account_number"} else {})
              + (if o.subscriptionDetails.Some? then {"subscription_details"} else {})
  {
  }

  lemma BillingNameFields(b: BillingAddressInput)
    ensures var j := MapBillingAddress(b);
            && GetString(j, "email_address") == Some(b.emailAddress)
            && GetString(j, "phone_number") == Some(b.phoneNumber)
            && GetString(j, "country_code") == Some(b.countryCode)
            && GetString(j, "first_name") == Some(b.firstName)
  {
  }

  lemma BillingOptionalNameFields(b: BillingAddressInput)
    ensures var j := MapBillingAddress(b);
            && GetString(j, "middle_name") == Some(b.middleName.GetOr(""))
            && GetString(j, "last_name") == Some(b.lastName)
            && GetString(j, "line_1") == Some(b.line1.GetOr(""))
            && GetString(j, "line_2") == Some(b.line2.GetOr(""))
  {
  }

  lemma BillingPlaceFields(b: BillingAddressInput)
    ensures var j := MapBillingAddress(b);
            && GetString(j, "city") == Some(b.city.GetOr(""))
            && GetString(j, "state") == Some(b.state.GetOr(""))
            && GetString(j, "postal_code") == Some(b.postalCode.GetOr(""))
            && GetString(j, "zip_code") == Some(b.zipCode.GetOr(""))
  {
  }

  /** The billing wire object reads back as the normalized address. */
  lemma BillingRoundTrip(b: BillingAddressInput)
    ensures DecodeBillingAddress(MapBillingAddress(b)) == Some(NormalizeBilling(b))
  {
    BillingNameFields(b);
    BillingOptionalNameFields(b);
    BillingPlaceFields(b);
  }

  lemma OrderIdFields(o: SubmitOrderInput)
    ensures var j := SubmitOrderBody(o);
            && GetString(j, "id") == Some(o.merchantReference)
            && GetString(j, "currency") == Some(o.currency)
  {
  }

  lemma OrderAmountFields(o: SubmitOrderInput)
    ensures var j := SubmitOrderBody(o);
            && Prop(j, "amount") == Some(JNum(o.amount))
            && GetString(j, "description") == Some(o.description)
  {
  }

  lemma OrderRoutingFields(o: SubmitOrderInput)
    ensures var j := SubmitOrderBody(o);
            && GetString(j, "callback_url") == Some(o.callbackUrl)
            && GetString(j, "notification_id") == Some(o.notificationId)
  {
  }

  lemma OrderBranchFields(o: SubmitOrderInput)
    ensures var j := SubmitOrderBody(o);
            && GetString(j, "branch") == Some(o.branch.GetOr(""))
            && Prop(j, "billing_address") == Some(MapBillingAddress(o.billingAddress))
  {
  }

  lemma OrderOptionalFields(o: SubmitOrderInput)
    ensures var j := SubmitOrderBody(o);
            && GetString(j, "account_number") == (if HasAccountNumber(o) then o.accountNumber else None)
            && Prop(j, "subscription_details") == (if o.subscriptionDetails.Some? then Some(MapSubscriptionDetails(o.subscriptionDetails.value)) else None)
  {
  }

  /** Every field of the mapped billing address is a string: no field is left undefined. */
  lemma BillingFieldsAreStrings(b: BillingAddressInput)
    ensures forall k :: k in MapBillingAddress(b).fields ==> MapBillingAddress(b).fields[k].JStr?
  {
  }

  /** Subscription details read back exactly as they were mapped. */
  lemma SubscriptionDetailsRoundTrip(d: SubscriptionDetailsInput)
    ensures DecodeSubscriptionDetails(MapSubscriptionDetails(d)) == Some(d)
  {
    var j := MapSubscriptionDetails(d);
    assert GetString(j, "start_date") == Some(d.startDate);
    assert GetString(j, "end_date") == Some(d.endDate);
    assert GetString(j, "frequency") == Some(d.frequency);
  }

  /** The wire body reads back as the normalized order: nothing but normalization is lost. */
  lemma OrderBodyRoundTrip(o: SubmitOrderInput)
    ensures DecodeOrderBody(SubmitOrderBody(o)) == Some(NormalizeOrder(o))
  {
    BillingRoundTrip(o.billingAddress);
    OrderIdFields(o);
    OrderAmountFields(o);
    OrderRoutingFields(o);
    OrderBranchFields(o);
    OrderOptionalFields(o);
    if o.subscriptionDetails.Some? {
      SubscriptionDetailsRoundTrip(o.subscriptionDetails.value);
    }
  }

  /** Two orders are sent as the same body exactly when they normalize alike. */
  lemma OrderBodyDeterminesNormalizedOrder(o1: SubmitOrderInput, o2: SubmitOrderInput)
    ensures SubmitOrderBody(o1) == SubmitOrderBody(o2) <==> NormalizeOrder(o1) == NormalizeOrder(o2)
  {
    OrderBodyRoundTrip(o1);
    OrderBodyRoundTrip(o2);
    if NormalizeOrder(o1) == NormalizeOrder(o2) {
      assert SubmitOrderBody(o1) == SubmitOrderBody(NormalizeOrder(o1));
      assert SubmitOrderBody(o2) == SubmitOrderBody(NormalizeOrder(o2));
    }
  }

  /** `submitOrderRequest`: the order goes out, token-gated, as its wire body. */
  method SubmitOrderRequest(cl: Client, history: seq<Request>, o: SubmitOrderInput) returns (r: Run<Json>)
    ensures FollowsTokenStep(cl, history, r)
    ensures |r.trace| == |history| + 2 <==> TokenOf(RequestAccessToken(cl, history)).Some?
    ensures |r.trace| < |history| + 2 ==> r.result.Failure?
    ensures |r.trace| == |history| + 2 ==>
              && LastRequest(r).verb == Post
              && LastRequest(r).url == BaseUrl(cl.config.environment).value + "/Transactions/SubmitOrderRequest"
              && LastRequest(r).body == Some(SubmitOrderBody(o))
    ensures |history| <= |r.trace| && r.trace[..|history|] == history
    ensures |r.trace| == |history| + 2 ==>
              AnswersLast(cl, r) && BearsToken(LastRequest(r), TokenOf(RequestAccessToken(cl, history)).value)
  {
    r := WithToken(cl, history, SubmitOrderCall(SubmitOrderBody(o)));
    if |r.trace| == |history| + 2 {
      SubmitOrderRequestShape(SubmitOrderBody(o), BaseUrl(cl.config.environment).value,
                              TokenOf(RequestAccessToken(cl, history)).value);
    }
  }

  lemma SubmitOrderRequestShape(body: Json, base: string, token: Json)
    ensures var req := CallRequest(SubmitOrderCall(body), base, token);
            req.verb == Post && req.url == base + "/Transactions/SubmitOrderRequest" && req.body == Some(body)
  {
  }
}

=== FILE: text.dfy ===
/**
 * The JavaScript string built-ins the client uses: `trim`, `toLowerCase`
 * (on ASCII letters), `split` on one character, and decimal printing of a
 * status code.
 */
module JsText {

  /** ECMAScript WhiteSpace and LineTerminator code points: what `trim` removes. */
  predicate IsWhitespace(c: char) {
    || c == '\t' || c == '\n' || c == '\U{000B}' || c == '\U{000C}' || c == '\r'
    || c == ' ' || c == '\U{00A0}' || c == '\U{1680}'
    || ('\U{2000}' <= c <= '\U{200A}')
    || c == '\U{2028}' || c == '\U{2029}' || c == '\U{202F}' || c == '\U{205F}'
    || c == '\U{3000}' || c == '\U{FEFF}'
  }

  predicate AllWhitespace(s: string) {
    forall i :: 0 <= i < |s| ==> IsWhitespace(s[i])
  }

  /** `trimStart`: the longest suffix that does not begin with whitespace. */
  function TrimStart(s: string): (r: string)
    ensures |r| <= |s| && r == s[|s| - |r|..]
    ensures AllWhitespace(s[..|s| - |r|])
    ensures r != [] ==> !IsWhitespace(r[0])
  {
    if s != [] && IsWhitespace(s[0]) then
      var r := TrimStart(s[1..]);
      assert s[..|s| - |r|] == [s[0]] + s[1..][..|s| - 1 - |r|];
      r
    else
      s
  }

  /** `trimEnd`: the longest prefix that does not end with whitespace. */
  function TrimEnd(s: string): (r: string)
    ensures |r| <= |s| && r == s[..|r|]
    ensures AllWhitespace(s[|r|..])
    ensures r != [] ==> !IsWhitespace(r[|r| - 1])
  {
    if s != [] && IsWhitespace(s[|s| - 1]) then
      var r := TrimEnd(s[..|s| - 1]);
      assert forall i :: |r| <= i < |s| - 1 ==> s[i] == s[..|s| - 1][i];
      r
    else
      s
  }

  /** `r` is the infix of `s` starting at `a` with only whitespace around it. */
  ghost predicate InfixWithin(r: string, s: string, a: int) {
    && 0 <= a <= |s| - |r|
    && r == s[a..a + |r|]
    && AllWhitespace(s[..a])
    && AllWhitespace(s[a + |r|..])
  }

  /**
   * `trim`: the infix left after removing all leading and trailing
   * whitespace; it neither begins nor ends with whitespace.
   */
  lemma TrimWithin(s: string, t: string, r: string)
    requires |t| <= |s| && t == s[|s| - |t|..] && AllWhitespace(s[..|s| - |t|])
    requires |r| <= |t| && r == t[..|r|] && AllWhitespace(t[|r|..])
    ensures InfixWithin(r, s, |s| - |t|)
  {
    var a := |s| - |t|;
    assert s[a..a + |r|] == t[..|r|];
    assert s[a + |r|..] == t[|r|..];
  }

  function Trim(s: string): (r: string)
    ensures |r| <= |s|
    ensures r != [] ==> !IsWhitespace(r[0]) && !IsWhitespace(r[|r| - 1])
    ensures exists a :: InfixWithin(r, s, a)
  {
    var t := TrimStart(s);
    var r := TrimEnd(t);
    TrimWithin(s, t, r);
    r
  }

  /** Trimming leaves nothing exactly when the string is all whitespace. */
  lemma TrimEmptyIffBlank(s: string)
    ensures Trim(s) == "" <==> AllWhitespace(s)
  {
    var r := Trim(s);
    var a :| InfixWithin(r, s, a);
    if r == "" {
      forall i | 0 <= i < |s| ensures IsWhitespace(s[i]) {
        if i < a {
          assert s[..a][i] == s[i];
        } else {
          assert s[a..][i - a] == s[i];
        }
      }
    } else {
      assert s[a] == r[0];
    }
  }

  /** Trimming is idempotent. */
  lemma TrimIdempotent(s: string)
    ensures Trim(Trim(s)) == Trim(s)
  {
    var r := Trim(s);
    if r != [] {
      assert TrimStart(r) == r;
      assert TrimEnd(r) == r;
    }
  }

  function LowerChar(c: char): char {
    if 'A' <= c <= 'Z' then (c as int - 'A' as int + 'a' as int) as char else c
  }

  /** `toLowerCase`, restricted to the ASCII letters. */
  function AsciiLower(s: string): (r: string)
    ensures |r| == |s|
  {
    seq(|s|, i requires 0 <= i < |s| => LowerChar(s[i]))
  }

  /** Lowering twice is lowering once. */
  lemma AsciiLowerIdempotent(s: string)
    ensures AsciiLower(AsciiLower(s)) == AsciiLower(s)
  {
  }

  /** The position of the first occurrence of `c`. */
  function IndexOf(s: string, c: char): (k: nat)
    requires c in s
    ensures k < |s| && s[k] == c && c !in s[..k]
  {
    if s[0] == c then 0
    else
      assert s == [s[0]] + s[1..];
      var k := IndexOf(s[1..], c);
      assert s[..k + 1] == [s[0]] + s[1..][..k];
      k + 1
  }

  /** The first occurrence of `c` in `p + [c] + t` ends `p` when `p` lacks `c`. */
  lemma IndexOfAfter(p: string, c: char, t: string)
    requires c !in p
    ensures c in p + [c] + t && IndexOf(p + [c] + t, c) == |p|
  {
    var s := p + [c] + t;
    assert s[|p|] == c;
  }

  /** Concatenation of `parts` with `sep` between consecutive ones: `parts.join(sep)`. */
  function Join(parts: seq<string>, sep: char): string {
    if |parts| == 0 then ""
    else if |parts| == 1 then parts[0]
    else parts[0] + [sep] + Join(parts[1..], sep)
  }

  /**
   * `s.split(sep)`: the maximal separator-free segments of `s`, in order,
   * which join back to `s`.
   */
  function Split(s: string, sep: char): (parts: seq<string>)
    ensures |parts| >= 1
    ensures forall i :: 0 <= i < |parts| ==> sep !in parts[i]
    ensures Join(parts, sep) == s
    decreases |s|
  {
    if sep in s then
      var k := IndexOf(s, sep);
      var rest := Split(s[k + 1..], sep);
      var parts := [s[..k]] + rest;
      assert parts[1..] == rest;
      assert s == s[..k] + [sep] + s[k + 1..];
      parts
    else
      [s]
  }

  /** Splitting `p + [sep] + t` peels off `p` first. */
  lemma SplitCons(p: string, sep: char, t: string)
    requires sep !in p
    ensures Split(p + [sep] + t, sep) == [p] + Split(t, sep)
  {
    var s := p + [sep] + t;
    IndexOfAfter(p, sep, t);
    assert s[..|p|] == p;
    assert s[|p| + 1..] == t;
  }

  /** Splitting a join of separator-free parts recovers the parts. */
  lemma {:induction false} SplitJoin(parts: seq<string>, sep: char)
    requires |parts| >= 1
    requires forall i :: 0 <= i < |parts| ==> sep !in parts[i]
    ensures Split(Join(parts, sep), sep) == parts
    decreases |parts|
  {
    if |parts| == 1 {
    } else {
      SplitJoin(parts[1..], sep);
      SplitCons(parts[0], sep, Join(parts[1..], sep));
      assert parts == [parts[0]] + parts[1..];
    }
  }

  predicate IsDigit(c: char) {
    '0' <= c <= '9'
  }

  predicate AllDigits(s: string) {
    forall i :: 0 <= i < |s| ==> IsDigit(s[i])
  }

  function DigitChar(d: nat): (c: char)
    requires d < 10
  {
    ('0' as int + d) as char
  }

  /** The decimal numeral of `n`, as a template literal prints an integer. */
  function NatToDecimal(n: nat): (r: string)
    ensures |r| >= 1 && AllDigits(r)
  {
    if n < 10 then [DigitChar(n)] else NatToDecimal(n / 10) + [DigitChar(n % 10)]
  }

  /** The value of a numeral. */
  function DecimalValue(s: string): nat
    requires AllDigits(s)
  {
    if s == [] then 0
    else DecimalValue(s[..|s| - 1]) * 10 + (s[|s| - 1] as int - '0' as int)
  }

  /** Reading back a printed numeral gives the number. */
  lemma {:induction false} DecimalRoundTrip(n: nat)
    ensures DecimalValue(NatToDecimal(n)) == n
  {
    if n >= 10 {
      var r := NatToDecimal(n);
      assert r[..|r| - 1] == NatToDecimal(n / 10);
      DecimalRoundTrip(n / 10);
    }
  }
}

=== FILE: wrappers.dfy ===
/** Failure-compatible Option and Result types used throughout the model. */
module Wrappers {

  /** `None` stands for JavaScript's `undefined` (or an absent optional field). */
  datatype Option<+T> = None | Some(value: T) {

    predicate IsFailure() {
      None?
    }

    function PropagateFailure<U>(): Option<U>
      requires None?
    {
      None
    }

    function Extract(): T
      requires Some?
    {
      value
    }

    /** The value, or `default` when absent: the `??` operator. */
    function GetOr(default: T): T {
      match this
      case Some(v) => v
      case None => default
    }
  }

  /** `Failure` carries the message of the `Error` the source throws. */
  datatype Result<+T, +E> = Success(value: T) | Failure(error: E) {

    predicate IsFailure() {
      Failure?
    }

    function PropagateFailure<U>(): Result<U, E>
      requires Failure?
    {
      Failure(error)
    }

    function Extract(): T
      requires Success?
    {
      value
    }
  }
}
